=== FILE: README.md ===
# Room-booking chat bots: a Dafny model

This project models the decision logic of three small Bot Framework bots
that book meeting rooms and answer questions about booking. Each bot is
modelled as pure functions over immutable data.

- **The prompt demo bot** (`EchoBot`, file `echo_bot.dfy`). A flag records
  which question the bot asked last (`ConversationFlow.QuestionState`). One
  inbound text per turn moves it along:
  - from `None` to the yes/no card;
  - then to the employee-id question;
  - then to `RoomNo`, where it stays and echoes the stored id.

  A turn maps (flag, booking data, raw text) to (flag, booking data,
  messages sent). The raw text may be null. The flag and the data are
  threaded together, as they are for a conversation with one user. The
  members-added handler greets each joining user and then runs one turn. The .NET text helpers
  the bot relies on are modelled from their documented behaviour in
  `dotnet_text.dfy`: `char.IsWhiteSpace`, `string.Trim()` and
  `string.IsNullOrWhiteSpace`.
- **The booking waterfall** (`BookingDataDialog`, file
  `booking_data_dialog.dfy`). The dialog runs eight steps in a fixed order:
  1. welcome and "do you want to book?";
  2. room choice, or the end of the dialog;
  3. the room's asset id, then the employee-id question;
  4. the date question;
  5. the start-time question;
  6. the end-time question;
  7. the summary card and the confirmation;
  8. the booked or cancelled message.

  The dialog is `Waiting(index, values)` or `Ended`. A prompt's answer
  arrives already recognised, as a typed `Answer`. An exception inside a
  step is a `Failure`:
  - a previous result that is not of the kind the step reads makes the step
    throw;
  - a room choice outside the four leaves `AssetId` unset, and the summary
    step then fails reading it.

  The receipt card is represented by the booking record it summarises.
  `Summary` gives the card's four facts for a record. The booking record,
  the times of day and the two renderings the summary uses are in
  `booking.dfy`. The room number is rendered in decimal, and each time as
  `hh:mm`.
- **The FAQ bot's answer selection** (`QnADialog`, file `qna_dialog.dfy`).
  The knowledge base's first answer decides the output. The bot sends the
  fallback texts, the answer followed by a hint, or a card with follow-up
  prompts. In the card case it also keeps the answer id and the query for
  the next turn.

`wrappers.dfy` holds `Option` and `Result`. A C# reference that may be null
is an `Option`. `seqs.dfy` holds a generic filter over sequences and small
facts about it and about list concatenation; the members-added proofs use
it to drop the greetings from what the handler sends.

## Model

| member | source | states |
|---|---|---|
| `EchoBot.FillOutBookingData` | PromtInputBotDemo/PromtInputBotDemo/Bots/EchoBot.cs:83-125 | One turn either keeps the flag or moves it one step along None → IsAcceptBooking → EmployeeId → RoomNo. The booking data changes only when the employee id is accepted, and exactly that move sends nothing. Every other turn sends exactly one message, and never the greeting message itself (an echoed id is a message of its own kind, even when its text equals the greeting's). |
| `EchoBot.NoneSendsAcceptCard` | PromtInputBotDemo/PromtInputBotDemo/Bots/EchoBot.cs:94-97 | From `None`, any text (or null) sends the yes/no card and moves to `IsAcceptBooking`. The data is untouched. |
| `EchoBot.AcceptOnlyOnExactYes` | PromtInputBotDemo/PromtInputBotDemo/Bots/EchoBot.cs:98-108 | At the yes/no question, the flag reaches `EmployeeId` if and only if the raw text is exactly "ใช่". In that case the employee-id prompt is sent. Otherwise the card is re-sent and nothing changes. |
| `EchoBot.AcceptIsNotTrimmed` | PromtInputBotDemo/PromtInputBotDemo/Bots/EchoBot.cs:86-108 | A padded "ใช่", the "no" button's value "ไม่ใช่" and a null text all leave the bot at the yes/no question. |
| `EchoBot.EmployeeIdStoredIffNotBlank` | PromtInputBotDemo/PromtInputBotDemo/Bots/EchoBot.cs:109-120 | At the employee-id question, the flag moves to `RoomNo` if and only if the text is non-null and not all white space. The trimmed text is then stored: it is non-empty and has no white space at either end, and nothing is sent. Otherwise the error text is sent and nothing changes. |
| `EchoBot.LaterStatesEchoEmployeeId` | PromtInputBotDemo/PromtInputBotDemo/Bots/EchoBot.cs:121-123 | `RoomNo`, `TimeFrom` and `TimeTo` are absorbing. Flag and data are unchanged, and exactly one message echoes the stored id. |
| `EchoBot.Run` | PromtInputBotDemo/PromtInputBotDemo/Bots/EchoBot.cs:30-43 | Successive message turns, one per inbound text, send at most one message per turn. |
| `EchoBot.StepKeepsConsistent` | PromtInputBotDemo/PromtInputBotDemo/Bots/EchoBot.cs:92-124 | One turn preserves the invariant that the time questions are never current, and that at `RoomNo` a non-empty, trimmed id is stored. |
| `EchoBot.RunKeepsConsistent` | PromtInputBotDemo/PromtInputBotDemo/Bots/EchoBot.cs:92-124 | Any number of turns preserve that invariant (by induction on the inputs). |
| `EchoBot.ReachableStates` | PromtInputBotDemo/PromtInputBotDemo/Bots/EchoBot.cs:92-124 | From the initial flag, whatever is typed, only `None`, `IsAcceptBooking`, `EmployeeId` and `RoomNo` are reached. `TimeFrom` and `TimeTo` never are. |
| `EchoBot.AllFourAreReached` | PromtInputBotDemo/PromtInputBotDemo/Bots/EchoBot.cs:92-124 | Each of those four states is reached by a concrete conversation. The id " E1 " is stored as "E1". |
| `EchoBot.YesThenIdReachesRoomNo` | PromtInputBotDemo/PromtInputBotDemo/Bots/EchoBot.cs:85-115 | From the start, any first message, then the exact yes, then any id that is not all white space gives the card, then the id question, and stops at `RoomNo` with the trimmed id stored. |
| `EchoBot.EchoesCarryAnId` | PromtInputBotDemo/PromtInputBotDemo/Bots/EchoBot.cs:121-123 | In every conversation that starts from a consistent state, each echo carries a stored id that is not null and not all white space. |
| `EchoBot.RoomNoIsFinal` | PromtInputBotDemo/PromtInputBotDemo/Bots/EchoBot.cs:121-123 | Once at `RoomNo`, any further texts keep flag and data and echo the stored id once per turn. |
| `EchoBot.OnMembersAdded` | PromtInputBotDemo/PromtInputBotDemo/Bots/EchoBot.cs:45-65 | Exactly one greeting is sent per joining member other than the bot. If only the bot joins, nothing is sent and nothing changes. |
| `EchoBot.MembersAddedGreetsEachUser` | PromtInputBotDemo/PromtInputBotDemo/Bots/EchoBot.cs:47-63 | The handler equals the reference `GreetEach` over the members other than the bot: each of them, in list order, is greeted and then given one questionnaire turn. A bot entry, wherever it stands, contributes nothing. |
| `EchoBot.GreetEachSendsTurnsMessages` | PromtInputBotDemo/PromtInputBotDemo/Bots/EchoBot.cs:55-59 | Removing the greetings from what greeting n users sends leaves exactly the messages of n message turns on the same text, in order. |
| `EchoBot.GreetEachRunsOneTurnPerUser` | PromtInputBotDemo/PromtInputBotDemo/Bots/EchoBot.cs:55-59 | Greeting n users leaves flag and data where n message turns on the same text leave them. It sends exactly n more messages than those turns, and without the greetings its messages are exactly those turns' messages. |
| `EchoBot.MembersAddedIsOneTurnPerUser` | PromtInputBotDemo/PromtInputBotDemo/Bots/EchoBot.cs:47-63 | After the handler, flag and data are those of one message turn per joining non-bot member on the update's text. The handler sends exactly one message per such member beyond those turns' messages, and without the greetings its messages are exactly those turns' messages. |
| `EchoBot.BotEntryIsSkipped` | PromtInputBotDemo/PromtInputBotDemo/Bots/EchoBot.cs:55 | A leading bot entry sends nothing and changes nothing; the count of users to greet is unchanged. |
| `EchoBot.BotThenUserIsGreetedThenAsked` | PromtInputBotDemo/PromtInputBotDemo/Bots/EchoBot.cs:47-59 | An update that lists the bot and then a user, at the start of a conversation, sends the greeting and then the yes/no card, and the bot waits for the answer. |
| `EchoBot.OneMemberJoins` | PromtInputBotDemo/PromtInputBotDemo/Bots/EchoBot.cs:55-59 | One joining user gets the greeting first and then exactly one turn's messages, with that turn's effect on flag and data. |
| `EchoBot.NewUserIsGreetedThenAsked` | PromtInputBotDemo/PromtInputBotDemo/Bots/EchoBot.cs:55-59 | At the start of a conversation, a joining user sees the greeting and then the yes/no card, and the bot waits for the answer. |
| `DotNetText.Trim` | PromtInputBotDemo/PromtInputBotDemo/Bots/EchoBot.cs:85 | The result has no white space at either end. It is a slice of the input with only white space cut from both sides. |
| `DotNetText.TrimmingIsUnique` | PromtInputBotDemo/PromtInputBotDemo/Bots/EchoBot.cs:85 | At most one string is a trimming of a given text, so the characterisation pins `Trim` down exactly. |
| `DotNetText.TrimIdempotent` | PromtInputBotDemo/PromtInputBotDemo/Bots/EchoBot.cs:85 | Trimming twice is trimming once. |
| `DotNetText.TrimEmptyIffAllWhiteSpace` | PromtInputBotDemo/PromtInputBotDemo/Bots/EchoBot.cs:110 | Trimming leaves nothing if and only if the text is all white space. |
| `DotNetText.TrimmedIsNullOrWhiteSpace` | PromtInputBotDemo/PromtInputBotDemo/Bots/EchoBot.cs:110 | The trimmed input is null-or-white-space if and only if the raw text is all white space. |
| `BookingDataDialog.Position` | DialogDemoBot/DialogDemoBot/Dialogs/BookingDataDialog.cs:27-37 | Every step has a position in the waterfall, and the waterfall holds that step there. |
| `BookingDataDialog.WaterfallListsEachStepOnce` | DialogDemoBot/DialogDemoBot/Dialogs/BookingDataDialog.cs:27-37 | The waterfall has eight steps, each listed exactly once. |
| `BookingDataDialog.RoomAssetId` | DialogDemoBot/DialogDemoBot/Dialogs/BookingDataDialog.cs:82-96 | A choice has an asset id if and only if it is one of the four offered rooms, and "Room k" has asset id k. |
| `BookingDataDialog.RoomLabelsMapToAssetIds` | DialogDemoBot/DialogDemoBot/Dialogs/BookingDataDialog.cs:82-96 | "Room k" maps to asset id k for k in 1..4, and no other choice maps to an asset id. |
| `BookingDataDialog.AllowBookingStep` | DialogDemoBot/DialogDemoBot/Dialogs/BookingDataDialog.cs:50-58 | The first step stores nothing, sends the welcome text and asks a yes/no question that offers no choice list. |
| `BookingDataDialog.SelectRoomStep` | DialogDemoBot/DialogDemoBot/Dialogs/BookingDataDialog.cs:60-77 | A prompt follows if and only if the booking was accepted. That prompt offers exactly the four rooms. Declining ends the dialog. |
| `BookingDataDialog.EmployeeIdStep` | DialogDemoBot/DialogDemoBot/Dialogs/BookingDataDialog.cs:79-102 | Only `AssetId` may change. A listed room stores the asset id of that room, and any other choice stores nothing. The employee-id prompt follows. |
| `BookingDataDialog.BookingDateStep` | DialogDemoBot/DialogDemoBot/Dialogs/BookingDataDialog.cs:104-113 | The typed text is stored as `EmployeeId`, no other value changes, and the date prompt follows. |
| `BookingDataDialog.TimeFromStep` | DialogDemoBot/DialogDemoBot/Dialogs/BookingDataDialog.cs:115-126 | The resolved date is stored as `BookingDate`, no other value changes, and the start-time prompt follows. |
| `BookingDataDialog.TimeToStep` | DialogDemoBot/DialogDemoBot/Dialogs/BookingDataDialog.cs:128-139 | The resolved start is stored as `TimeFrom`, no other value changes, and the end-time prompt follows. |
| `BookingDataDialog.AssembleBooking` | DialogDemoBot/DialogDemoBot/Dialogs/BookingDataDialog.cs:141-151 | The record is built if and only if all four values are stored. It carries the stored asset id, employee id and date, and the time-of-day parts of the start and end. A missing `AssetId` is reported as that key, and every failure is a missing key. |
| `BookingDataDialog.Summary` | DialogDemoBot/DialogDemoBot/Dialogs/BookingDataDialog.cs:155-159 | The card has exactly four facts, each keyed by one of the room, employee id, date and time range keys. |
| `BookingDataDialog.SummaryStatesTheBooking` | DialogDemoBot/DialogDemoBot/Dialogs/BookingDataDialog.cs:155-159 | The four facts are, in order: room, employee id, date and time range. The room fact reads back as the asset id. The range text parses back to both times' hours and minutes. |
| `BookingDataDialog.ConfirmBookingStep` | DialogDemoBot/DialogDemoBot/Dialogs/BookingDataDialog.cs:141-176 | The step succeeds if and only if all four values are stored. It then sends exactly one receipt card, for the assembled record, asks for confirmation and keeps the values. Otherwise it fails with the missing key the record reports. |
| `BookingDataDialog.FinalStep` | DialogDemoBot/DialogDemoBot/Dialogs/BookingDataDialog.cs:178-189 | The booked text is sent if and only if the booking was confirmed; otherwise the cancelled text is sent. Either way the dialog ends. |
| `BookingDataDialog.RunStep` | DialogDemoBot/DialogDemoBot/Dialogs/BookingDataDialog.cs:50-189 | Each step writes at most its own key. Only `SelectRoom` and `Final` end the dialog, and `Final` always does. A step fails if and only if the answer is not of the kind the step reads, or it is the summary step and a booking value is missing. A wrong-kind answer fails naming the step; a summary step with the right kind of answer can fail only on a missing key. |
| `BookingDataDialog.Begin` | DialogDemoBot/DialogDemoBot/Dialogs/BookingDataDialog.cs:50-58 | Starting the dialog sends the welcome text before the yes/no prompt, and then waits at step 1. |
| `BookingDataDialog.Continue` | DialogDemoBot/DialogDemoBot/Dialogs/BookingDataDialog.cs:27-37 | An answer runs exactly the waiting step, and the turn fails if and only if that step throws, with the same error. Otherwise the dialog then waits at the next index or has ended. Once ended, nothing happens. |
| `BookingDataDialog.RunFrom` | DialogDemoBot/DialogDemoBot/Dialogs/BookingDataDialog.cs:27-37 | Feeding answers one per turn runs at most one step per answer, and a dialog that has ended never waits again. A first turn that throws ends the run with its error. |
| `BookingDataDialog.Session` | DialogDemoBot/DialogDemoBot/Dialogs/BookingDataDialog.cs:27-58 | Whatever is answered, a conversation opens with the welcome and the yes/no prompt and with `AllowBooking`, and runs at most one more step per answer. |
| `BookingDataDialog.EndedStaysEnded` | DialogDemoBot/DialogDemoBot/Dialogs/BookingDataDialog.cs:72-75 | After the dialog has ended, further answers send nothing and change nothing. |
| `BookingDataDialog.RunFollowsWaterfall` | DialogDemoBot/DialogDemoBot/Dialogs/BookingDataDialog.cs:27-37 | From any point, the steps that run are the next ones of the waterfall, in order. While the dialog waits, one step runs per answer, and it never waits past the last step. |
| `BookingDataDialog.RunFromSplit` | DialogDemoBot/DialogDemoBot/Dialogs/BookingDataDialog.cs:27-37 | A run over several answers is the first answer's step followed by the run on the rest. |
| `BookingDataDialog.SessionFollowsWaterfall` | DialogDemoBot/DialogDemoBot/Dialogs/BookingDataDialog.cs:27-37 | A whole conversation runs a prefix of the waterfall that starts with `AllowBooking`. |
| `BookingDataDialog.SevenAnswersFinish` | DialogDemoBot/DialogDemoBot/Dialogs/BookingDataDialog.cs:27-37 | After seven answers the dialog has ended, unless a step threw. |
| `BookingDataDialog.DecliningEndsTheDialog` | DialogDemoBot/DialogDemoBot/Dialogs/BookingDataDialog.cs:60-77 | Answering "no" first ends the dialog after only the welcome and the yes/no prompt. No room list is offered. Answers fed to the ended dialog change nothing and send nothing. |
| `BookingDataDialog.AcceptingOffersTheRooms` | DialogDemoBot/DialogDemoBot/Dialogs/BookingDataDialog.cs:60-71 | Answering "yes" first offers exactly "Room 1".."Room 4" as a choice prompt. |
| `BookingDataDialog.CompleteConversation` | DialogDemoBot/DialogDemoBot/Dialogs/BookingDataDialog.cs:50-189 | Seven well-formed answers run all eight steps in order and send the exact activity sequence. The receipt card is for the record built from those answers: room k's asset id k, the typed employee id, the date, and the time-of-day parts of both times. The last message reflects the confirmation. |
| `BookingDataDialog.EndBeforeStartIsBooked` | DialogDemoBot/DialogDemoBot/Dialogs/BookingDataDialog.cs:141-176 | A record whose end time is earlier than its start is shown on the receipt card and booked all the same. |
| `Booking.NatString` | DialogDemoBot/DialogDemoBot/Dialogs/BookingDataDialog.cs:156 | `int.ToString()` of a non-negative value gives digits that read back as the value, with no leading zero. |
| `Booking.DecimalString` | DialogDemoBot/DialogDemoBot/Dialogs/BookingDataDialog.cs:156 | `int.ToString()` of any value: a minus sign for negatives, then the digits of the magnitude. The digits are never empty and have no leading zero, so 0 is "0". |
| `Booking.HhMm` | DialogDemoBot/DialogDemoBot/Dialogs/BookingDataDialog.cs:159 | A time renders as five characters with the colon in the middle. |
| `Booking.HhMmRoundTrip` | DialogDemoBot/DialogDemoBot/Dialogs/BookingDataDialog.cs:159 | An `hh:mm` rendering parses back to the same hours and minutes. |
| `Booking.TimeRange` | DialogDemoBot/DialogDemoBot/Dialogs/BookingDataDialog.cs:159 | The range text is always 13 characters long. |
| `Booking.TimeRangeRoundTrip` | DialogDemoBot/DialogDemoBot/Dialogs/BookingDataDialog.cs:159 | The text "hh:mm - hh:mm" parses back to the start and end hours and minutes, in order. |
| `QnADialog.Respond` | BookingRoomFAQ/Dialogs/QnADialog.cs:33-58 | The result component is always null, and at least one activity is sent. |
| `QnADialog.Process` | BookingRoomFAQ/Dialogs/QnADialog.cs:24-58 | The turn throws if and only if the knowledge base returns no answer. Otherwise the result component is null and something is sent. |
| `QnADialog.OnlyFirstResultMatters` | BookingRoomFAQ/Dialogs/QnADialog.cs:29-32 | Two answer lists with the same first answer give the same turn. |
| `QnADialog.OldStateOnlyReachesTheQuery` | BookingRoomFAQ/Dialogs/QnADialog.cs:30 | The previous state influences the turn only through the knowledge-base query. |
| `QnADialog.NoMatchSendsTheFallback` | BookingRoomFAQ/Dialogs/QnADialog.cs:33-39 | The no-match answer without follow-ups sends exactly the two fixed fallback texts and clears the state. |
| `QnADialog.PlainAnswerThenHint` | BookingRoomFAQ/Dialogs/QnADialog.cs:40-44 | Any other answer without follow-ups sends exactly the answer and then the ask-again hint, and clears the state. |
| `QnADialog.PromptsStartAFollowUp` | BookingRoomFAQ/Dialogs/QnADialog.cs:46-56 | An answer with follow-ups sends one card with those prompts. The new state records the answer id and the query exactly as received. |
| `QnADialog.StateKeptIffPrompts` | BookingRoomFAQ/Dialogs/QnADialog.cs:27-58 | A state is returned if and only if the first answer has at least one prompt. A null context, a null list and an empty list all clear it. |
| `QnADialog.OutputShapes` | BookingRoomFAQ/Dialogs/QnADialog.cs:33-56 | The output is one card exactly when prompts exist; otherwise it is two texts. The first text is the answer unless nothing matched. |

## Left out

- Bot Framework hosting is not modelled: state property accessors, saving
  state, the dialog stack, cancellation tokens and async sends. A turn's
  effect is its returned flag, data and message list.
- The prompts' recognisers and their retry loops are not modelled.
  Confirm, choice, text and date-time prompts are represented by the typed
  answers they hand over; re-asking on an unrecognised reply is not
  modelled.
- `DateTime.Parse` is not modelled: a date-time answer arrives already
  parsed. The culture-dependent `ToString("dd MMM yyyy")` is the parameter
  `formatDate`. Sub-second ticks of a time of day are not kept.
- The knowledge-base HTTP query is the parameter `queryService`.
  `CardHelper.GetHeroCard` is not part of this model: a hero card is kept
  as its title and prompts. Card layout and attachment rendering are not
  modelled either.
- `EchoBot.GetChoices` is never called and is not modelled.
- The prompt demo's `BookingData.cs` is not part of this model. Only its
  `EmployeeId` property is used, and it is modelled as a nullable string.
- `QnADialog.Process`: a knowledge-base answer whose `Answer` text is null
  is not modelled (the answer is a string). An old state of another type
  than `QnABotState` (a failing cast) is not modelled either.
- `EchoBot.FillOutBookingData`: the flag (conversation state) and the
  booking data (user state) are threaded as one pair, which is exact for a
  conversation with one user. In a group conversation a second user can
  reach `RoomNo` with a null `EmployeeId`; the model then sends
  `Echo(None)`, where the host refuses to send a null text and throws.
  `EchoesCarryAnId` shows that this does not arise within one user's
  conversation.
- After the dialog has ended, what the host does with a later message is
  not modelled; the model only feeds answers to the ended dialog.
- `EchoBot.Run` only bounds the number of messages. What the turns do is
  stated per turn and by the reachability lemmas.

=== FILE: booking.dfy ===
/** The booking record the dialog assembles, the date and time values it is
    built from, and the two renderings the summary card uses: a room number in
    decimal and a time of day as "hh:mm". */
module Booking {
  import W = Wrappers

  /** A calendar date. Its rendering ("dd MMM yyyy") depends on the culture
      and is supplied by the caller wherever it is needed. */
  datatype Date = Date(year: int, month: int, day: int)

  type Hour = h: int | 0 <= h < 24
  type Sixty = m: int | 0 <= m < 60

  /** `DateTime.TimeOfDay`: the time elapsed since midnight, always under a
      day. Sub-second ticks are not kept. */
  datatype TimeOfDay = TimeOfDay(hours: Hour, minutes: Sixty, seconds: Sixty)

  datatype DateTime = DateTime(date: Date, timeOfDay: TimeOfDay)

  /** The record the dialog fills in. */
  datatype BookingData = BookingData(
    employeeId: string,
    assetId: int,
    bookingDate: DateTime,
    timeFrom: TimeOfDay,
    timeTo: TimeOfDay)

  // ---------------------------------------------------------------------------
  // Decimal digits

  predicate IsDigit(c: char) {
    '0' <= c <= '9'
  }

  function Digit(d: int): (c: char)
    requires 0 <= d < 10
    ensures IsDigit(c) && DigitValue(c) == d
  {
    "0123456789"[d]
  }

  function DigitValue(c: char): int
    requires IsDigit(c)
  {
    c as int - '0' as int
  }

  predicate AllDigits(s: string) {
    forall i :: 0 <= i < |s| ==> IsDigit(s[i])
  }

  /** The number a string of decimal digits denotes. */
  function DigitsValue(s: string): nat
    requires AllDigits(s)
  {
    if s == [] then 0 else 10 * DigitsValue(s[..|s| - 1]) + DigitValue(s[|s| - 1])
  }

  /** `int.ToString()` for a non-negative value: shortest decimal form. */
  function NatString(n: nat): (r: string)
    ensures r != [] && AllDigits(r)
    ensures DigitsValue(r) == n
    ensures |r| > 1 ==> r[0] != '0'
  {
    if n < 10 then [Digit(n)]
    else
      var r := NatString(n / 10) + [Digit(n % 10)];
      assert r[..|r| - 1] == NatString(n / 10);
      r
  }

  /** `int.ToString()` in the invariant culture: a minus sign for negatives. */
  function DecimalString(n: int): (r: string)
    ensures n >= 0 ==> r != [] && AllDigits(r) && DigitsValue(r) == n && (|r| > 1 ==> r[0] != '0')
    ensures n < 0 ==> |r| > 1 && r[0] == '-' && AllDigits(r[1..]) && DigitsValue(r[1..]) == -n && r[1] != '0'
  {
    if n < 0 then "-" + NatString(-n) else NatString(n)
  }

  /** Two decimal digits, zero padded. */
  function TwoDigits(n: int): (r: string)
    requires 0 <= n < 100
    ensures |r| == 2 && AllDigits(r)
    ensures 10 * DigitValue(r[0]) + DigitValue(r[1]) == n
  {
    [Digit(n / 10), Digit(n % 10)]
  }

  // ---------------------------------------------------------------------------
  // "hh:mm"

  /** `TimeSpan.ToString(@"hh\:mm")`: hours and minutes, two digits each. */
  function HhMm(t: TimeOfDay): (r: string)
    ensures |r| == 5 && r[2] == ':'
  {
    TwoDigits(t.hours) + ":" + TwoDigits(t.minutes)
  }

  /** Reads back an "hh:mm" text as (hours, minutes). */
  function ParseHhMm(s: string): W.Option<(int, int)> {
    if |s| == 5 && IsDigit(s[0]) && IsDigit(s[1]) && s[2] == ':' && IsDigit(s[3]) && IsDigit(s[4]) then
      W.Some((10 * DigitValue(s[0]) + DigitValue(s[1]), 10 * DigitValue(s[3]) + DigitValue(s[4])))
    else
      W.None
  }

  lemma HhMmRoundTrip(t: TimeOfDay)
    ensures ParseHhMm(HhMm(t)) == W.Some((t.hours, t.minutes))
  {
    var h, m := TwoDigits(t.hours), TwoDigits(t.minutes);
    var r := HhMm(t);
    assert r[0] == h[0] && r[1] == h[1] && r[3] == m[0] && r[4] == m[1];
  }

  /** The booked range as the summary shows it: "hh:mm - hh:mm". */
  function TimeRange(from: TimeOfDay, to: TimeOfDay): (r: string)
    ensures |r| == 13
  {
    HhMm(from) + " - " + HhMm(to)
  }

  function ParseTimeRange(s: string): W.Option<((int, int), (int, int))> {
    if |s| == 13 && s[5..8] == " - " then
      match (ParseHhMm(s[..5]), ParseHhMm(s[8..]))
      case (Some(a), Some(b)) => W.Some((a, b))
      case _ => W.None
    else
      W.None
  }

  /** The range text gives back both times' hours and minutes, in order. */
  lemma TimeRangeRoundTrip(from: TimeOfDay, to: TimeOfDay)
    ensures ParseTimeRange(TimeRange(from, to)) == W.Some(((from.hours, from.minutes), (to.hours, to.minutes)))
  {
    var r := TimeRange(from, to);
    assert r[..5] == HhMm(from);
    assert r[5..8] == " - ";
    assert r[8..] == HhMm(to);
    HhMmRoundTrip(from);
    HhMmRoundTrip(to);
  }
}

=== FILE: booking_data_dialog.dfy ===
/** The room-booking waterfall: eight steps run one after another, each but
    the last usually ending in a prompt whose answer is handed to the next.

    The prompts' recognisers are outside the model: an answer arrives already
    typed (`Answer`). The position in the waterfall is an index into
    `Waterfall`; the step-local value bag is the record `StepValues`. A C#
    exception inside a step is a `Failure`. */
module BookingDataDialog {
  import W = Wrappers
  import opened Booking

  datatype Step =
    | AllowBooking
    | SelectRoom
    | EmployeeId
    | BookingDate
    | TimeFrom
    | TimeTo
    | ConfirmBooking
    | Final

  /** The order in which the waterfall runs its steps. */
  const Waterfall: seq<Step> :=
    [AllowBooking, SelectRoom, EmployeeId, BookingDate, TimeFrom, TimeTo, ConfirmBooking, Final]

  /** Where a step sits in the waterfall. */
  function Position(s: Step): (i: nat)
    ensures i < |Waterfall| && Waterfall[i] == s
  {
    match s
    case AllowBooking => 0
    case SelectRoom => 1
    case EmployeeId => 2
    case BookingDate => 3
    case TimeFrom => 4
    case TimeTo => 5
    case ConfirmBooking => 6
    case Final => 7
  }

  /** Each step occurs exactly once in the waterfall. */
  lemma WaterfallListsEachStepOnce()
    ensures |Waterfall| == 8
    ensures forall i, j :: 0 <= i < j < |Waterfall| ==> Waterfall[i] != Waterfall[j]
    ensures forall i :: 0 <= i < |Waterfall| ==> Position(Waterfall[i]) == i
  {
  }

  /** A prompt's answer as its recogniser hands it over. */
  datatype Answer =
    | Confirmed(yes: bool)        // confirm prompt
    | Chosen(choice: string)       // choice prompt: the chosen choice's value
    | Typed(text: string)         // text prompt
    | Resolved(moment: DateTime)  // date-time prompt, first resolution already parsed

  datatype PromptKind = ConfirmPrompt | ChoicePrompt | TextPrompt | DateTimePrompt

  datatype Prompt = Prompt(kind: PromptKind, text: string, retry: W.Option<string>, choices: seq<string>)

  datatype Fact = Fact(key: string, value: string)

  /** What the user sees, in order. */
  datatype Activity =
    | Message(text: string)
    | Receipt(title: string, booking: BookingData)  // the summary card; its facts are `Summary(booking, _)`
    | Asked(prompt: Prompt)

  /** The step-local values the waterfall keeps between steps, by key. */
  datatype StepValues = StepValues(
    assetId: W.Option<int>,
    employeeId: W.Option<string>,
    bookingDate: W.Option<DateTime>,
    timeFrom: W.Option<DateTime>)

  const NoValues: StepValues := StepValues(W.None, W.None, W.None, W.None)

  datatype Next = Ask(prompt: Prompt) | EndDialog

  datatype StepOutcome = StepOutcome(values: StepValues, sent: seq<Activity>, next: Next)

  datatype Error =
    | UnexpectedResult(step: Step)  // the previous result is not of the kind the step reads
    | KeyNotFound(key: string)      // a step value read before it was stored

  const Welcome := "ยินดีต้อนรับสู่ตัวช่วยในการจองห้องประชุม"
  const AcceptPrompt := Prompt(ConfirmPrompt, "คุณต้องการที่จะทำการจองห้องหรือไม่", W.None, [])
  const Rooms: seq<string> := ["Room 1", "Room 2", "Room 3", "Room 4"]
  const RoomPrompt := Prompt(ChoicePrompt, "โปรดเลือกห้องที่ต้องการจอง", W.Some("กรุณาเลือกอีกครั้ง"), Rooms)
  const EmployeeIdPrompt := Prompt(TextPrompt, "โปรดใส่รหัสพนักงาน", W.None, [])
  const DatePrompt := Prompt(DateTimePrompt, "วันที่คุณต้องการจองคือวันที่เท่าไหร่", W.Some("กรุณาใส่วันที่ให้ถูกต้อง"), [])
  const TimeFromPrompt := Prompt(DateTimePrompt, "เริ่มจองตั้งแต่เวลา ?", W.Some("กรุณาใส่เวลาให้ถูกต้อง"), [])
  const TimeToPrompt := Prompt(DateTimePrompt, "จองถึงเวลา ?", W.Some("กรุณาใส่เวลาให้ถูกต้อง"), [])
  const SummaryTitle := "ยืนยันการจอง"
  const ConfirmSummaryPrompt := Prompt(ConfirmPrompt, "ข้อมูลถูกต้องหรือไม่ ?", W.None, [])
  const Booked := "ทำการจองสำเร็จ"
  const Cancelled := "ยกเลิกขั้นตอนการจอง"

  const RoomKey := "ห้องที่"
  const EmployeeIdKey := "Employee Id"
  const DateKey := "วันที่จอง"
  const TimeRangeKey := "ช่วงเวลาที่จอง"

  // ---------------------------------------------------------------------------
  // Room labels

  /** The asset id a room choice stands for; `None` for any other choice. */
  function RoomAssetId(choice: string): (r: W.Option<int>)
    ensures r.Some? <==> choice in Rooms
    ensures r.Some? ==> 1 <= r.value <= 4 && Rooms[r.value - 1] == choice
  {
    if choice == "Room 1" then W.Some(1)
    else if choice == "Room 2" then W.Some(2)
    else if choice == "Room 3" then W.Some(3)
    else if choice == "Room 4" then W.Some(4)
    else W.None
  }

  /** "Room k" names asset k for k in 1..4, and no other choice names an asset:
      the mapping is the inverse of the offered choice list. */
  lemma RoomLabelsMapToAssetIds(choice: string, k: int)
    ensures RoomAssetId(choice) == W.Some(k) <==> 1 <= k <= 4 && choice == Rooms[k - 1]
    ensures RoomAssetId(choice).Some? <==> choice in Rooms
  {
  }

  // ---------------------------------------------------------------------------
  // The steps

  /** Welcomes the user and asks, as a yes/no question, whether to book. */
  function AllowBookingStep(values: StepValues): (o: StepOutcome)
    ensures o.values == values && o.sent == [Message(Welcome)]
    ensures o.next.Ask? && o.next.prompt.kind == ConfirmPrompt && o.next.prompt.choices == []
  {
    StepOutcome(values, [Message(Welcome)], Ask(AcceptPrompt))
  }

  function SelectRoomStep(values: StepValues, accept: bool): (o: StepOutcome)
    ensures o.values == values && o.sent == []
    ensures o.next.Ask? <==> accept
    ensures o.next.Ask? ==> o.next.prompt.choices == Rooms
  {
    if accept then StepOutcome(values, [], Ask(RoomPrompt))
    else StepOutcome(values, [], EndDialog)
  }

  /** Stores the asset id of the chosen room; a choice outside the four stores
      nothing, as the `switch` in `EmployeeIdStepAsync` has no default. */
  function EmployeeIdStep(values: StepValues, choice: string): (o: StepOutcome)
    ensures o.values.(assetId := values.assetId) == values
    ensures choice in Rooms ==>
      o.values.assetId.Some? && 1 <= o.values.assetId.value <= 4 && Rooms[o.values.assetId.value - 1] == choice
    ensures choice !in Rooms ==> o.values == values
    ensures o.sent == [] && o.next == Ask(EmployeeIdPrompt)
  {
    var stored := match RoomAssetId(choice)
      case Some(id) => values.(assetId := W.Some(id))
      case None => values;
    StepOutcome(stored, [], Ask(EmployeeIdPrompt))
  }

  function BookingDateStep(values: StepValues, text: string): (o: StepOutcome)
    ensures o.values.employeeId == W.Some(text)
    ensures o.values.(employeeId := values.employeeId) == values
    ensures o.sent == [] && o.next == Ask(DatePrompt)
  {
    StepOutcome(values.(employeeId := W.Some(text)), [], Ask(DatePrompt))
  }

  function TimeFromStep(values: StepValues, date: DateTime): (o: StepOutcome)
    ensures o.values.bookingDate == W.Some(date)
    ensures o.values.(bookingDate := values.bookingDate) == values
    ensures o.sent == [] && o.next == Ask(TimeFromPrompt)
  {
    StepOutcome(values.(bookingDate := W.Some(date)), [], Ask(TimeFromPrompt))
  }

  function TimeToStep(values: StepValues, from: DateTime): (o: StepOutcome)
    ensures o.values.timeFrom == W.Some(from)
    ensures o.values.(timeFrom := values.timeFrom) == values
    ensures o.sent == [] && o.next == Ask(TimeToPrompt)
  {
    StepOutcome(values.(timeFrom := W.Some(from)), [], Ask(TimeToPrompt))
  }

  /** All four step values the booking record is built from are present. */
  predicate Complete(values: StepValues) {
    values.assetId.Some? && values.employeeId.Some? && values.bookingDate.Some? && values.timeFrom.Some?
  }

  /** Builds the booking record, reading the values in the order
      `ConfirmBookingStepAsync` reads them; the first one missing is the key
      reported. */
  function AssembleBooking(values: StepValues, to: DateTime): (r: W.Result<BookingData, Error>)
    ensures r.Success? <==> Complete(values)
    ensures r.Success? ==>
      && r.value.assetId == values.assetId.value
      && r.value.employeeId == values.employeeId.value
      && r.value.bookingDate == values.bookingDate.value
      && r.value.timeFrom == values.timeFrom.value.timeOfDay
      && r.value.timeTo == to.timeOfDay
    ensures values.assetId.None? ==> r == W.Failure(KeyNotFound("AssetId"))
    ensures r.Failure? ==> r.error.KeyNotFound?
  {
    match (values.assetId, values.employeeId, values.bookingDate, values.timeFrom)
    case (None, _, _, _) => W.Failure(KeyNotFound("AssetId"))
    case (_, None, _, _) => W.Failure(KeyNotFound("EmployeeId"))
    case (_, _, None, _) => W.Failure(KeyNotFound("BookingDate"))
    case (_, _, _, None) => W.Failure(KeyNotFound("TimeFrom"))
    case (Some(asset), Some(employee), Some(date), Some(from)) =>
      W.Success(BookingData(employee, asset, date, from.timeOfDay, to.timeOfDay))
  }

  /** The facts on the summary card. `formatDate` renders a date the way the
      host culture does. */
  function Summary(b: BookingData, formatDate: Date -> string): (facts: seq<Fact>)
    ensures |facts| == 4
    ensures forall i :: 0 <= i < |facts| ==> facts[i].key in {RoomKey, EmployeeIdKey, DateKey, TimeRangeKey}
  {
    [ Fact(RoomKey, DecimalString(b.assetId)),
      Fact(EmployeeIdKey, b.employeeId),
      Fact(DateKey, formatDate(b.bookingDate.date)),
      Fact(TimeRangeKey, TimeRange(b.timeFrom, b.timeTo)) ]
  }

  /** The summary lists room, employee id, date and time range, in that
      order: the room's number reads back as the asset id, the employee id
      is shown as typed, and the range reads back as the start and end
      hours and minutes. */
  lemma SummaryStatesTheBooking(b: BookingData, formatDate: Date -> string)
    ensures var facts := Summary(b, formatDate);
      && [facts[0].key, facts[1].key, facts[2].key, facts[3].key] == [RoomKey, EmployeeIdKey, DateKey, TimeRangeKey]
      && (b.assetId >= 0 ==> AllDigits(facts[0].value) && DigitsValue(facts[0].value) == b.assetId)
      && facts[1].value == b.employeeId
      && facts[2].value == formatDate(b.bookingDate.date)
      && ParseTimeRange(facts[3].value)
         == W.Some(((b.timeFrom.hours, b.timeFrom.minutes), (b.timeTo.hours, b.timeTo.minutes)))
  {
    TimeRangeRoundTrip(b.timeFrom, b.timeTo);
  }

  /** Shows the summary and asks for confirmation. Nothing compares the start
      and end times: any pair is summarised. */
  function ConfirmBookingStep(values: StepValues, to: DateTime): (r: W.Result<StepOutcome, Error>)
    ensures r.Success? <==> Complete(values)
    ensures r.Success? ==>
      && r.value.values == values
      && r.value.next == Ask(ConfirmSummaryPrompt)
      && r.value.sent == [Receipt(SummaryTitle, AssembleBooking(values, to).value)]
    ensures r.Failure? ==> r == W.Failure(AssembleBooking(values, to).error)
  {
    match AssembleBooking(values, to)
    case Failure(e) => W.Failure(e)
    case Success(b) =>
      W.Success(StepOutcome(values, [Receipt(SummaryTitle, b)], Ask(ConfirmSummaryPrompt)))
  }

  /** Reports the outcome and ends the dialog whatever the answer. */
  function FinalStep(values: StepValues, confirmed: bool): (o: StepOutcome)
    ensures o.next == EndDialog && o.values == values
    ensures o.sent == [Message(Booked)] || o.sent == [Message(Cancelled)]
    ensures o.sent == [Message(Booked)] <==> confirmed
  {
    StepOutcome(values, [Message(if confirmed then Booked else Cancelled)], EndDialog)
  }

  /** The values a step may write: each of the four middle steps writes its
      own key, every other step none. */
  predicate WritesOnlyItsKey(step: Step, before: StepValues, after: StepValues) {
    match step
    case EmployeeId => after.(assetId := before.assetId) == before
    case BookingDate => after.(employeeId := before.employeeId) == before
    case TimeFrom => after.(bookingDate := before.bookingDate) == before
    case TimeTo => after.(timeFrom := before.timeFrom) == before
    case _ => after == before
  }

  /** Whether `result` is of the kind `step` reads: the first step reads
      nothing, the room and final steps a yes/no, the employee-id step a
      choice, the date step a text and the last three steps a date-time. */
  predicate ReadsItsKind(step: Step, result: W.Option<Answer>) {
    match step
    case AllowBooking => true
    case SelectRoom => result.Some? && result.value.Confirmed?
    case EmployeeId => result.Some? && result.value.Chosen?
    case BookingDate => result.Some? && result.value.Typed?
    case Final => result.Some? && result.value.Confirmed?
    case _ => result.Some? && result.value.Resolved?
  }

  /** Runs one step on the previous prompt's answer (none for the first
      step). An answer that is not of the kind the step reads makes the step
      throw: the confirm, choice and text steps cast it, and the date-time
      steps end up reading a null value (`DateTime.Parse` of null, or `.Value`
      of a missing first resolution). */
  function RunStep(step: Step, values: StepValues, result: W.Option<Answer>)
    : (r: W.Result<StepOutcome, Error>)
    ensures r.Success? ==> WritesOnlyItsKey(step, values, r.value.values)
    ensures r.Success? && r.value.next == EndDialog ==> step == SelectRoom || step == Final
    ensures r.Success? && step == Final ==> r.value.next == EndDialog
    ensures r.Failure? ==> r.error == UnexpectedResult(step) || step == ConfirmBooking
    ensures r.Failure? <==> !ReadsItsKind(step, result) || (step == ConfirmBooking && !Complete(values))
    ensures r.Failure? && !ReadsItsKind(step, result) ==> r.error == UnexpectedResult(step)
    ensures r.Failure? && ReadsItsKind(step, result) ==> r.error.KeyNotFound?
  {
    var fail := W.Failure(UnexpectedResult(step));
    match step
    case AllowBooking => W.Success(AllowBookingStep(values))
    case SelectRoom =>
      if result.Some? && result.value.Confirmed? then W.Success(SelectRoomStep(values, result.value.yes)) else fail
    case EmployeeId =>
      if result.Some? && result.value.Chosen? then W.Success(EmployeeIdStep(values, result.value.choice)) else fail
    case BookingDate =>
      if result.Some? && result.value.Typed? then W.Success(BookingDateStep(values, result.value.text)) else fail
    case TimeFrom =>
      if result.Some? && result.value.Resolved? then W.Success(TimeFromStep(values, result.value.moment)) else fail
    case TimeTo =>
      if result.Some? && result.value.Resolved? then W.Success(TimeToStep(values, result.value.moment)) else fail
    case ConfirmBooking =>
      if result.Some? && result.value.Resolved? then ConfirmBookingStep(values, result.value.moment) else fail
    case Final =>
      if result.Some? && result.value.Confirmed? then W.Success(FinalStep(values, result.value.yes)) else fail
  }

  // ---------------------------------------------------------------------------
  // The waterfall

  /** Either waiting for the answer to the prompt issued by step `index - 1`,
      which step `index` will consume, or finished. */
  datatype Dialog = Waiting(index: nat, values: StepValues) | Ended

  /** The dialog after some turns, everything sent meanwhile, and the steps
      that ran, in order. */
  datatype Progress = Progress(dialog: Dialog, sent: seq<Activity>, ran: seq<Step>)

  /** After step number `index` ran: a prompt is sent and the next step waits
      for its answer, or the dialog is over. */
  function Proceed(index: nat, o: StepOutcome): (p: Progress)
    requires index < |Waterfall|
    ensures p.ran == [Waterfall[index]]
    ensures p.dialog.Waiting? <==> o.next.Ask?
    ensures p.dialog.Waiting? ==> p.dialog == Waiting(index + 1, o.values)
    ensures p.sent == o.sent + (if o.next.Ask? then [Asked(o.next.prompt)] else [])
  {
    match o.next
    case Ask(prompt) => Progress(Waiting(index + 1, o.values), o.sent + [Asked(prompt)], [Waterfall[index]])
    case EndDialog => Progress(Ended, o.sent, [Waterfall[index]])
  }

  /** Starting the dialog runs the first step. */
  function Begin(): (p: Progress)
    ensures p.dialog == Waiting(1, NoValues) && p.ran == [AllowBooking]
    ensures p.sent == [Message(Welcome), Asked(AcceptPrompt)]
  {
    match RunStep(AllowBooking, NoValues, W.None)
    case Success(o) => Proceed(0, o)
    case Failure(_) => Progress(Ended, [], [])
  }

  /** One answer: the waiting step runs on it, and if the step throws, so
      does the turn. Past the last step, or once ended, nothing happens. */
  function Continue(d: Dialog, answer: Answer): (r: W.Result<Progress, Error>)
    ensures r.Success? && d.Waiting? && d.index < |Waterfall| ==> r.value.ran == [Waterfall[d.index]]
    ensures r.Success? && r.value.dialog.Waiting? ==>
      d.Waiting? && r.value.dialog.index == d.index + 1 < |Waterfall|
    ensures d.Ended? ==> r == W.Success(Progress(Ended, [], []))
    ensures r.Success? ==> |r.value.ran| <= 1
    ensures d.Waiting? && d.index < |Waterfall| ==>
      var step := RunStep(Waterfall[d.index], d.values, W.Some(answer));
      && (r.Failure? <==> step.Failure?)
      && (r.Failure? ==> r.error == step.error)
  {
    match d
    case Ended => W.Success(Progress(Ended, [], []))
    case Waiting(i, values) =>
      if i >= |Waterfall| then W.Success(Progress(Ended, [], []))
      else
        match RunStep(Waterfall[i], values, W.Some(answer))
        case Failure(e) => W.Failure(e)
        case Success(o) => W.Success(Proceed(i, o))
  }

  /** Feeds the answers one per turn; the first exception ends the run. At
      most one step runs per answer, and a dialog that has ended never waits
      again. */
  function RunFrom(d: Dialog, answers: seq<Answer>): (r: W.Result<Progress, Error>)
    ensures r.Success? ==> |r.value.ran| <= |answers|
    ensures r.Success? && r.value.dialog.Waiting? ==> d.Waiting?
    ensures answers != [] && Continue(d, answers[0]).Failure? ==> r == W.Failure(Continue(d, answers[0]).error)
    decreases |answers|
  {
    if answers == [] then W.Success(Progress(d, [], []))
    else
      match Continue(d, answers[0])
      case Failure(e) => W.Failure(e)
      case Success(p) =>
        match RunFrom(p.dialog, answers[1..])
        case Failure(e) => W.Failure(e)
        case Success(q) => W.Success(Progress(q.dialog, p.sent + q.sent, p.ran + q.ran))
  }

  /** A whole conversation: the dialog begins, then each answer is one turn.
      Whatever is answered, it opens with the welcome and the yes/no prompt
      and with `AllowBooking`, and runs at most one more step per answer. */
  function Session(answers: seq<Answer>): (r: W.Result<Progress, Error>)
    ensures r.Success? ==>
      && |r.value.sent| >= 2 && r.value.sent[..2] == [Message(Welcome), Asked(AcceptPrompt)]
      && 1 <= |r.value.ran| <= |answers| + 1 && r.value.ran[0] == AllowBooking
  {
    var start := Begin();
    match RunFrom(start.dialog, answers)
    case Failure(e) => W.Failure(e)
    case Success(q) => W.Success(Progress(q.dialog, start.sent + q.sent, start.ran + q.ran))
  }

  // ---------------------------------------------------------------------------
  // Properties of whole conversations

  /** Once ended, further answers change nothing and send nothing. */
  lemma {:induction false} EndedStaysEnded(answers: seq<Answer>)
    ensures RunFrom(Ended, answers) == W.Success(Progress(Ended, [], []))
    decreases |answers|
  {
    if answers != [] {
      var nothing := Progress(Ended, [], []);
      assert Continue(Ended, answers[0]) == W.Success(nothing);
      EndedStaysEnded(answers[1..]);
      assert nothing.sent + nothing.sent == [] && nothing.ran + nothing.ran == [];
    }
  }

  /** `ran` is the stretch of the waterfall that starts at position `i`. */
  predicate RunsFrom(i: nat, ran: seq<Step>) {
    i + |ran| <= |Waterfall| && ran == Waterfall[i..i + |ran|]
  }

  lemma RunsFromPrepend(i: nat, ran: seq<Step>)
    requires i < |Waterfall| && RunsFrom(i + 1, ran)
    ensures RunsFrom(i, [Waterfall[i]] + ran)
  {
  }

  /** From any point of the waterfall the steps that run are the next ones of
      `Waterfall`, in order, one per answer while the dialog keeps waiting,
      and the dialog never waits past the last step. */
  lemma {:induction false} RunFollowsWaterfall(d: Dialog, answers: seq<Answer>)
    requires d.Waiting? ==> d.index < |Waterfall|
    ensures var r := RunFrom(d, answers);
      r.Success? ==>
        && (d.Ended? ==> r.value == Progress(Ended, [], []))
        && (d.Waiting? ==> RunsFrom(d.index, r.value.ran))
        && (r.value.dialog.Waiting? ==>
              && d.Waiting? && |r.value.ran| == |answers|
              && r.value.dialog.index == d.index + |answers| < |Waterfall|)
    decreases |answers|
  {
    if d.Ended? {
      EndedStaysEnded(answers);
    } else if answers != [] && RunFrom(d, answers).Success? {
      var p, q := RunFromSplit(d, answers);
      RunFollowsWaterfall(p.dialog, answers[1..]);
      if p.dialog.Ended? {
        EndedStaysEnded(answers[1..]);
      }
      RunsFromPrepend(d.index, q.ran);
    }
  }

  /** A successful run on a non-empty list is the first answer's turn
      followed by the run on the rest. */
  lemma RunFromSplit(d: Dialog, answers: seq<Answer>) returns (p: Progress, q: Progress)
    requires answers != [] && RunFrom(d, answers).Success?
    requires d.Waiting? ==> d.index < |Waterfall|
    ensures d.Waiting? ==> p.ran == [Waterfall[d.index]]
    ensures p.dialog.Waiting? ==> d.Waiting? && p.dialog.index == d.index + 1 < |Waterfall|
    ensures RunFrom(p.dialog, answers[1..]) == W.Success(q)
    ensures RunFrom(d, answers) == W.Success(Progress(q.dialog, p.sent + q.sent, p.ran + q.ran))
  {
    p := Continue(d, answers[0]).value;
    q := RunFrom(p.dialog, answers[1..]).value;
  }

  /** A conversation runs a prefix of the waterfall, in order, starting with
      `AllowBooking`; while it still waits it has run one step per answer
      plus the first. */
  lemma SessionFollowsWaterfall(answers: seq<Answer>)
    ensures var r := Session(answers);
      r.Success? ==>
        && 1 <= |r.value.ran| <= |Waterfall|
        && r.value.ran == Waterfall[..|r.value.ran|]
        && (r.value.dialog.Waiting? ==> |r.value.ran| == |answers| + 1 == r.value.dialog.index < |Waterfall|)
  {
    var start := Begin();
    RunFollowsWaterfall(start.dialog, answers);
    var r := Session(answers);
    if r.Success? {
      var q := RunFrom(start.dialog, answers).value;
      assert r.value.ran == [AllowBooking] + q.ran;
      assert r.value.ran == Waterfall[..|r.value.ran|];
    }
  }

  /** Seven answers always finish the dialog (or an exception does). */
  lemma SevenAnswersFinish(answers: seq<Answer>)
    requires |answers| >= 7
    ensures var r := Session(answers); r.Success? ==> r.value.dialog.Ended?
  {
    SessionFollowsWaterfall(answers);
  }

  /** Declining at the first question ends the dialog at once: no room list
      is ever offered, and answers fed to the ended dialog change nothing and
      send nothing. */
  lemma DecliningEndsTheDialog(rest: seq<Answer>)
    ensures Session([Confirmed(false)] + rest)
         == W.Success(Progress(Ended, [Message(Welcome), Asked(AcceptPrompt)], [AllowBooking, SelectRoom]))
  {
    var answers := [Confirmed(false)] + rest;
    assert answers[1..] == rest;
    var start := Begin();
    assert Continue(start.dialog, Confirmed(false))
        == W.Success(Progress(Ended, [], [SelectRoom]));
    EndedStaysEnded(rest);
    var none: seq<Activity> := [];
    assert RunFrom(start.dialog, answers)
        == W.Success(Progress(Ended, none + none, [SelectRoom] + []));
    assert start.sent + (none + none) == [Message(Welcome), Asked(AcceptPrompt)];
    assert start.ran + ([SelectRoom] + []) == [AllowBooking, SelectRoom];
  }

  /** Accepting offers exactly the four rooms, as a choice prompt. */
  lemma AcceptingOffersTheRooms()
    ensures var r := Session([Confirmed(true)]);
      && r.Success?
      && r.value.dialog == Waiting(2, NoValues)
      && r.value.sent == [Message(Welcome), Asked(AcceptPrompt), Asked(RoomPrompt)]
      && RoomPrompt.kind == ChoicePrompt && RoomPrompt.choices == ["Room 1", "Room 2", "Room 3", "Room 4"]
  {
    var answers := [Confirmed(true)];
    assert answers[1..] == [];
  }

  /** The answers of a complete conversation that books room `k`. */
  function BookingAnswers(k: int, employee: string, date: DateTime, from: DateTime, to: DateTime, confirmed: bool)
    : seq<Answer>
    requires 1 <= k <= 4
  {
    [Confirmed(true), Chosen(Rooms[k - 1])] + [Typed(employee), Resolved(date), Resolved(from), Resolved(to), Confirmed(confirmed)]
  }

  /** Seven well-formed answers run all eight steps in order and end the
      dialog. The summary card carries the record built from the answers (the
      chosen room's asset id, the employee id, the date, and the time-of-day
      parts of both times) and the last message says whether the booking was
      confirmed. */
  lemma CompleteConversation(k: int, employee: string, date: DateTime, from: DateTime, to: DateTime,
                             confirmed: bool)
    requires 1 <= k <= 4
    ensures var r := Session(BookingAnswers(k, employee, date, from, to, confirmed));
      && r.Success?
      && r.value.dialog == Ended
      && r.value.ran == Waterfall
      && r.value.sent ==
         [ Message(Welcome), Asked(AcceptPrompt), Asked(RoomPrompt), Asked(EmployeeIdPrompt) ] +
         [ Asked(DatePrompt), Asked(TimeFromPrompt), Asked(TimeToPrompt),
           Receipt(SummaryTitle, BookingData(employee, k, date, from.timeOfDay, to.timeOfDay)),
           Asked(ConfirmSummaryPrompt),
           Message(if confirmed then Booked else Cancelled) ]
  {
    var answers := BookingAnswers(k, employee, date, from, to, confirmed);
    var choice := Rooms[k - 1];
    var v := NoValues.(assetId := W.Some(k));
    var full := v.(employeeId := W.Some(employee), bookingDate := W.Some(date), timeFrom := W.Some(from));
    RoomLabelsMapToAssetIds(choice, k);
    assert AssembleBooking(full, to) == W.Success(BookingData(employee, k, date, from.timeOfDay, to.timeOfDay));
    var t := FromEmployeeIdAnswered(v, employee, date, from, to, confirmed);
    FromAccept(choice, k, employee, date, from, to, confirmed);
    var q := Progress(Ended, [Asked(RoomPrompt), Asked(EmployeeIdPrompt)] + t.sent, [SelectRoom, EmployeeId] + t.ran);
    SessionAfterBegin(answers, q);
    Regroup(AllowBooking, SelectRoom, EmployeeId, t.ran);
    RegroupPairs(Message(Welcome), Asked(AcceptPrompt), Asked(RoomPrompt), Asked(EmployeeIdPrompt), t.sent);
  }

  lemma Regroup<T>(a: T, b: T, c: T, t: seq<T>)
    ensures [a] + ([b, c] + t) == [a, b, c] + t
  {
  }

  lemma RegroupPairs<T>(a: T, b: T, c: T, d: T, t: seq<T>)
    ensures [a, b] + ([c, d] + t) == [a, b, c, d] + t
  {
  }

  /** A session is the opening step followed by the run from step 1. */
  lemma SessionAfterBegin(answers: seq<Answer>, q: Progress)
    requires RunFrom(Waiting(1, NoValues), answers) == W.Success(q)
    ensures Session(answers) == W.Success(Progress(q.dialog, [Message(Welcome), Asked(AcceptPrompt)] + q.sent, [AllowBooking] + q.ran))
  {
  }

  /** The turns from the first answer on, in terms of the turns after the
      room was chosen. */
  lemma FromAccept(choice: string, id: int, employee: string, date: DateTime, from: DateTime, to: DateTime,
                   confirmed: bool)
    requires RoomAssetId(choice) == W.Some(id)
    ensures var t := FromEmployeeIdAnswered(NoValues.(assetId := W.Some(id)), employee, date, from, to, confirmed);
      RunFrom(Waiting(1, NoValues),
              [Confirmed(true), Chosen(choice)] + [Typed(employee), Resolved(date), Resolved(from), Resolved(to), Confirmed(confirmed)])
      == W.Success(Progress(Ended, [Asked(RoomPrompt), Asked(EmployeeIdPrompt)] + t.sent, [SelectRoom, EmployeeId] + t.ran))
  {
    var rest := [Chosen(choice)] + [Typed(employee), Resolved(date), Resolved(from), Resolved(to), Confirmed(confirmed)];
    FromRoomChoice(choice, id, employee, date, from, to, confirmed);
    var q := RunFrom(Waiting(2, NoValues), rest).value;
    var p := Progress(Waiting(2, NoValues), [Asked(RoomPrompt)], [SelectRoom]);
    ContinueWith(1, NoValues, Confirmed(true), SelectRoomStep(NoValues, true));
    assert Proceed(1, SelectRoomStep(NoValues, true)) == p;
    RunFromOne(Waiting(1, NoValues), Confirmed(true), rest, p, q);
    assert [Confirmed(true)] + rest
        == [Confirmed(true), Chosen(choice)] + [Typed(employee), Resolved(date), Resolved(from), Resolved(to), Confirmed(confirmed)];
    var t := FromEmployeeIdAnswered(NoValues.(assetId := W.Some(id)), employee, date, from, to, confirmed);
    assert p.sent + q.sent == [Asked(RoomPrompt), Asked(EmployeeIdPrompt)] + t.sent;
    assert p.ran + q.ran == [SelectRoom, EmployeeId] + t.ran;
  }

  /** The turns from the room choice on, in terms of the turns after it. */
  lemma FromRoomChoice(choice: string, id: int, employee: string, date: DateTime, from: DateTime, to: DateTime,
                       confirmed: bool)
    requires RoomAssetId(choice) == W.Some(id)
    ensures var t := FromEmployeeIdAnswered(NoValues.(assetId := W.Some(id)), employee, date, from, to, confirmed);
      RunFrom(Waiting(2, NoValues),
              [Chosen(choice)] + [Typed(employee), Resolved(date), Resolved(from), Resolved(to), Confirmed(confirmed)])
      == W.Success(Progress(Ended, [Asked(EmployeeIdPrompt)] + t.sent, [EmployeeId] + t.ran))
  {
    var v := NoValues.(assetId := W.Some(id));
    var rest := [Typed(employee), Resolved(date), Resolved(from), Resolved(to), Confirmed(confirmed)];
    var o := EmployeeIdStep(NoValues, choice);
    assert o == StepOutcome(v, [], Ask(EmployeeIdPrompt));
    FromEmployeeId(v, employee, date, from, to, confirmed);
    var q := FromEmployeeIdAnswered(v, employee, date, from, to, confirmed);
    var p := Progress(Waiting(3, v), [Asked(EmployeeIdPrompt)], [EmployeeId]);
    ContinueWith(2, NoValues, Chosen(choice), o);
    assert Proceed(2, o) == p;
    RunFromOne(Waiting(2, NoValues), Chosen(choice), rest, p, q);
  }

  /** The turns after the room was chosen, in closed form. */
  function FromEmployeeIdAnswered(v: StepValues, employee: string, date: DateTime, from: DateTime, to: DateTime,
                                  confirmed: bool): Progress
    requires v.assetId.Some?
  {
    var full := v.(employeeId := W.Some(employee), bookingDate := W.Some(date), timeFrom := W.Some(from));
    Progress(
      Ended,
      [ Asked(DatePrompt), Asked(TimeFromPrompt), Asked(TimeToPrompt),
        Receipt(SummaryTitle, AssembleBooking(full, to).value), Asked(ConfirmSummaryPrompt),
        Message(if confirmed then Booked else Cancelled) ],
      [BookingDate, TimeFrom, TimeTo, ConfirmBooking, Final])
  }

  lemma FromEmployeeId(v: StepValues, employee: string, date: DateTime, from: DateTime, to: DateTime,
                       confirmed: bool)
    requires v.assetId.Some?
    ensures RunFrom(Waiting(3, v), [Typed(employee), Resolved(date), Resolved(from), Resolved(to), Confirmed(confirmed)])
         == W.Success(FromEmployeeIdAnswered(v, employee, date, from, to, confirmed))
  {
    var v4 := v.(employeeId := W.Some(employee));
    var rest := [Resolved(date), Resolved(from), Resolved(to), Confirmed(confirmed)];
    FromBookingDate(v4, date, from, to, confirmed);
    var q := RunFrom(Waiting(4, v4), rest).value;
    var p := Progress(Waiting(4, v4), [Asked(DatePrompt)], [BookingDate]);
    ContinueWith(3, v, Typed(employee), BookingDateStep(v, employee));
    assert Proceed(3, BookingDateStep(v, employee)) == p;
    RunFromOne(Waiting(3, v), Typed(employee), rest, p, q);
    Prepend4(Typed(employee), Resolved(date), Resolved(from), Resolved(to), Confirmed(confirmed));
    var full := v.(employeeId := W.Some(employee), bookingDate := W.Some(date), timeFrom := W.Some(from));
    assert v4.(bookingDate := W.Some(date), timeFrom := W.Some(from)) == full;
    Prepend5(Asked(DatePrompt), Asked(TimeFromPrompt), Asked(TimeToPrompt),
             Receipt(SummaryTitle, AssembleBooking(full, to).value), Asked(ConfirmSummaryPrompt),
             Message(if confirmed then Booked else Cancelled));
    Prepend4(BookingDate, TimeFrom, TimeTo, ConfirmBooking, Final);
  }

  lemma Prepend2<T>(x: T, a: T, b: T)
    ensures [x] + [a, b] == [x, a, b]
  {
  }

  lemma Prepend3<T>(x: T, a: T, b: T, c: T)
    ensures [x] + [a, b, c] == [x, a, b, c]
  {
  }

  lemma Prepend4<T>(x: T, a: T, b: T, c: T, d: T)
    ensures [x] + [a, b, c, d] == [x, a, b, c, d]
  {
  }

  lemma Prepend5<T>(x: T, a: T, b: T, c: T, d: T, e: T)
    ensures [x] + [a, b, c, d, e] == [x, a, b, c, d, e]
  {
  }

  lemma FromBookingDate(v: StepValues, date: DateTime, from: DateTime, to: DateTime,
                        confirmed: bool)
    requires v.assetId.Some? && v.employeeId.Some?
    ensures var full := v.(bookingDate := W.Some(date), timeFrom := W.Some(from));
      RunFrom(Waiting(4, v), [Resolved(date), Resolved(from), Resolved(to), Confirmed(confirmed)])
      == W.Success(Progress(Ended,
           [ Asked(TimeFromPrompt), Asked(TimeToPrompt),
             Receipt(SummaryTitle, AssembleBooking(full, to).value), Asked(ConfirmSummaryPrompt),
             Message(if confirmed then Booked else Cancelled) ],
           [TimeFrom, TimeTo, ConfirmBooking, Final]))
  {
    var v5 := v.(bookingDate := W.Some(date));
    var rest := [Resolved(from), Resolved(to), Confirmed(confirmed)];
    FromTimeFrom(v5, from, to, confirmed);
    var q := RunFrom(Waiting(5, v5), rest).value;
    var p := Progress(Waiting(5, v5), [Asked(TimeFromPrompt)], [TimeFrom]);
    ContinueWith(4, v, Resolved(date), TimeFromStep(v, date));
    assert Proceed(4, TimeFromStep(v, date)) == p;
    RunFromOne(Waiting(4, v), Resolved(date), rest, p, q);
    Prepend3(Resolved(date), Resolved(from), Resolved(to), Confirmed(confirmed));
    var full := v.(bookingDate := W.Some(date), timeFrom := W.Some(from));
    assert v5.(timeFrom := W.Some(from)) == full;
    Prepend4(Asked(TimeFromPrompt), Asked(TimeToPrompt), Receipt(SummaryTitle, AssembleBooking(full, to).value),
             Asked(ConfirmSummaryPrompt), Message(if confirmed then Booked else Cancelled));
    Prepend3(TimeFrom, TimeTo, ConfirmBooking, Final);
  }

  lemma FromTimeFrom(v: StepValues, from: DateTime, to: DateTime, confirmed: bool)
    requires v.assetId.Some? && v.employeeId.Some? && v.bookingDate.Some?
    ensures var full := v.(timeFrom := W.Some(from));
      RunFrom(Waiting(5, v), [Resolved(from), Resolved(to), Confirmed(confirmed)])
      == W.Success(Progress(Ended,
           [ Asked(TimeToPrompt),
             Receipt(SummaryTitle, AssembleBooking(full, to).value), Asked(ConfirmSummaryPrompt),
             Message(if confirmed then Booked else Cancelled) ],
           [TimeTo, ConfirmBooking, Final]))
  {
    var v6 := v.(timeFrom := W.Some(from));
    var rest := [Resolved(to), Confirmed(confirmed)];
    FromTimeTo(v6, to, confirmed);
    var q := RunFrom(Waiting(6, v6), rest).value;
    var p := Progress(Waiting(6, v6), [Asked(TimeToPrompt)], [TimeTo]);
    ContinueWith(5, v, Resolved(from), TimeToStep(v, from));
    assert Proceed(5, TimeToStep(v, from)) == p;
    RunFromOne(Waiting(5, v), Resolved(from), rest, p, q);
    Prepend2(Resolved(from), Resolved(to), Confirmed(confirmed));
    Prepend3(Asked(TimeToPrompt), Receipt(SummaryTitle, AssembleBooking(v6, to).value), Asked(ConfirmSummaryPrompt),
             Message(if confirmed then Booked else Cancelled));
    Prepend2(TimeTo, ConfirmBooking, Final);
  }

  lemma FromTimeTo(v: StepValues, to: DateTime, confirmed: bool)
    requires Complete(v)
    ensures RunFrom(Waiting(6, v), [Resolved(to), Confirmed(confirmed)])
      == W.Success(Progress(Ended,
           [ Receipt(SummaryTitle, AssembleBooking(v, to).value), Asked(ConfirmSummaryPrompt),
             Message(if confirmed then Booked else Cancelled) ],
           [ConfirmBooking, Final]))
  {
    var last := Message(if confirmed then Booked else Cancelled);
    var card := Receipt(SummaryTitle, AssembleBooking(v, to).value);
    FromFinal(v, confirmed);
    var o := StepOutcome(v, [card], Ask(ConfirmSummaryPrompt));
    assert ConfirmBookingStep(v, to) == W.Success(o);
    ContinueWith(6, v, Resolved(to), o);
    var p := Progress(Waiting(7, v), [card, Asked(ConfirmSummaryPrompt)], [ConfirmBooking]);
    var q := Progress(Ended, [last], [Final]);
    assert Proceed(6, o) == p;
    RunFromOne(Waiting(6, v), Resolved(to), [Confirmed(confirmed)], p, q);
    assert [Resolved(to)] + [Confirmed(confirmed)] == [Resolved(to), Confirmed(confirmed)];
    assert p.sent + q.sent == [card, Asked(ConfirmSummaryPrompt), last];
    assert p.ran + q.ran == [ConfirmBooking, Final];
  }

  lemma FromFinal(v: StepValues, confirmed: bool)
    ensures RunFrom(Waiting(7, v), [Confirmed(confirmed)])
         == W.Success(Progress(Ended, [Message(if confirmed then Booked else Cancelled)], [Final]))
  {
    var none: seq<Activity> := [];
    var last := Message(if confirmed then Booked else Cancelled);
    ContinueWith(7, v, Confirmed(confirmed), FinalStep(v, confirmed));
    assert RunFrom(Ended, []) == W.Success(Progress(Ended, none, []));
    RunFromOne(Waiting(7, v), Confirmed(confirmed), [], Progress(Ended, [last], [Final]), Progress(Ended, none, []));
    assert [Confirmed(confirmed)] + [] == [Confirmed(confirmed)];
    assert [last] + none == [last];
    assert [Final] + [] == [Final];
  }

  /** `Continue` on a waiting dialog runs the waiting step. */
  lemma ContinueWith(i: nat, v: StepValues, a: Answer, o: StepOutcome)
    requires i < |Waterfall|
    requires RunStep(Waterfall[i], v, W.Some(a)) == W.Success(o)
    ensures Continue(Waiting(i, v), a) == W.Success(Proceed(i, o))
  {
  }

  /** `RunFrom` on a non-empty list: the first answer's turn, then the rest. */
  lemma RunFromOne(d: Dialog, first: Answer, rest: seq<Answer>, p: Progress, q: Progress)
    requires Continue(d, first) == W.Success(p)
    requires RunFrom(p.dialog, rest) == W.Success(q)
    ensures RunFrom(d, [first] + rest) == W.Success(Progress(q.dialog, p.sent + q.sent, p.ran + q.ran))
  {
    assert ([first] + rest)[1..] == rest;
  }

  /** The end time is not checked against the start time: a range that ends
      before it starts is summarised and booked all the same. */
  lemma EndBeforeStartIsBooked(k: int, employee: string, date: DateTime, from: DateTime, to: DateTime)
    requires 1 <= k <= 4
    requires to.timeOfDay.hours < from.timeOfDay.hours
    ensures var r := Session(BookingAnswers(k, employee, date, from, to, true));
      && r.Success? && r.value.dialog == Ended
      && Receipt(SummaryTitle, BookingData(employee, k, date, from.timeOfDay, to.timeOfDay))
         in r.value.sent
      && r.value.sent[|r.value.sent| - 1] == Message(Booked)
  {
    CompleteConversation(k, employee, date, from, to, true);
    var r := Session(BookingAnswers(k, employee, date, from, to, true));
    assert r.value.sent[7] == Receipt(SummaryTitle, BookingData(employee, k, date, from.timeOfDay, to.timeOfDay));
  }
}

=== FILE: conversation_flow.dfy ===
/** The prompt demo's conversation flag: which question the bot asked last. */
module ConversationFlow {

  /** In the declared order of the C# enum `ConversationFlow.QuestionState`;
      `None` is the value a new conversation starts with. */
  datatype QuestionState = IsAcceptBooking | EmployeeId | RoomNo | TimeFrom | TimeTo | None

  const Initial: QuestionState := None
}

=== FILE: dotnet_text.dfy ===
/** The three .NET string helpers the prompt demo relies on: `char.IsWhiteSpace`,
    `string.Trim()` and `string.IsNullOrWhiteSpace`. A C# `string` that may be
    null is an `Option<string>`. */
module DotNetText {
  import W = Wrappers

  /** The characters `char.IsWhiteSpace` accepts: the control characters
      U+0009..U+000D and U+0085, and the Unicode space, line and paragraph
      separators (categories Zs, Zl, Zp). */
  predicate IsWhiteSpace(c: char) {
    || ('\t' <= c <= '\r')
    || c == ' '
    || c == '\U{0085}'
    || c == '\U{00A0}'
    || c == '\U{1680}'
    || ('\U{2000}' <= c <= '\U{200A}')
    || c == '\U{2028}'
    || c == '\U{2029}'
    || c == '\U{202F}'
    || c == '\U{205F}'
    || c == '\U{3000}'
  }

  predicate AllWhiteSpace(s: string) {
    forall i :: 0 <= i < |s| ==> IsWhiteSpace(s[i])
  }

  /** `string.IsNullOrWhiteSpace`: null, empty, or white space only. */
  predicate IsNullOrWhiteSpace(s: W.Option<string>) {
    s.None? || AllWhiteSpace(s.value)
  }

  /** Neither end of `s` is a white-space character. */
  predicate IsTrimmed(s: string) {
    s == [] || (!IsWhiteSpace(s[0]) && !IsWhiteSpace(s[|s| - 1]))
  }

  /** `r` is `s` with a white-space prefix and a white-space suffix removed,
      and nothing more can be removed: the independent description of what
      `Trim` computes. */
  ghost predicate IsTrimmingOf(r: string, s: string) {
    && IsTrimmed(r)
    && exists i :: 0 <= i <= |s| - |r| && TrimmedAt(r, s, i)
  }

  ghost predicate TrimmedAt(r: string, s: string, i: int)
    requires 0 <= i <= |s| - |r|
  {
    && r == s[i..i + |r|]
    && AllWhiteSpace(s[..i])
    && AllWhiteSpace(s[i + |r|..])
  }

  /** Drops the leading white space. */
  function TrimStart(s: string): (r: string)
    ensures |r| <= |s| && r == s[|s| - |r|..]
    ensures AllWhiteSpace(s[..|s| - |r|])
    ensures r == [] || !IsWhiteSpace(r[0])
    decreases |s|
  {
    if |s| > 0 && IsWhiteSpace(s[0]) then
      var r := TrimStart(s[1..]);
      assert s[..|s| - |r|] == [s[0]] + s[1..][..|s| - 1 - |r|];
      r
    else
      s
  }

  /** Drops the trailing white space. */
  function TrimEnd(s: string): (r: string)
    ensures |r| <= |s| && r == s[..|r|]
    ensures AllWhiteSpace(s[|r|..])
    ensures r == [] || !IsWhiteSpace(r[|r| - 1])
    decreases |s|
  {
    if |s| > 0 && IsWhiteSpace(s[|s| - 1]) then
      var r := TrimEnd(s[..|s| - 1]);
      assert s[|r|..] == s[..|s| - 1][|r|..] + [s[|s| - 1]];
      r
    else
      s
  }

  /** `string.Trim()`: white space removed from both ends. */
  function Trim(s: string): (r: string)
    ensures IsTrimmingOf(r, s)
  {
    TrimStartThenEnd(s);
    TrimEnd(TrimStart(s))
  }

  lemma TrimStartThenEnd(s: string)
    ensures IsTrimmingOf(TrimEnd(TrimStart(s)), s)
  {
    var a := TrimStart(s);
    var r := TrimEnd(a);
    var i := |s| - |a|;
    assert r == s[i..i + |r|];
    assert s[i + |r|..] == a[|r|..];
    if r != [] {
      assert r[0] == a[0];
    }
    assert TrimmedAt(r, s, i);
  }

  /** At most one string is a trimming of `s`, so the characterisation
      `IsTrimmingOf` pins `Trim(s)` down exactly. */
  lemma {:induction false} TrimmingIsUnique(s: string, r1: string, r2: string)
    requires IsTrimmingOf(r1, s) && IsTrimmingOf(r2, s)
    ensures r1 == r2
  {
    var i1 :| 0 <= i1 <= |s| - |r1| && TrimmedAt(r1, s, i1);
    var i2 :| 0 <= i2 <= |s| - |r2| && TrimmedAt(r2, s, i2);
    // Each trimming starts at the first character that is not white space
    // and ends after the last one.
    WhitePrefix(s, i1);
    WhitePrefix(s, i2);
    WhiteSuffix(s, i1 + |r1|);
    WhiteSuffix(s, i2 + |r2|);
    assert r1 == [] || (s[i1] == r1[0] && s[i1 + |r1| - 1] == r1[|r1| - 1]);
    assert r2 == [] || (s[i2] == r2[0] && s[i2 + |r2| - 1] == r2[|r2| - 1]);
    assert r1 == [] <==> r2 == [];
    assert r1 != [] ==> i1 == i2 && |r1| == |r2|;
  }

  lemma WhitePrefix(s: string, k: int)
    requires 0 <= k <= |s| && AllWhiteSpace(s[..k])
    ensures forall j :: 0 <= j < k ==> IsWhiteSpace(s[j])
  {
    forall j | 0 <= j < k
      ensures IsWhiteSpace(s[j])
    {
      assert s[..k][j] == s[j];
    }
  }

  lemma WhiteSuffix(s: string, k: int)
    requires 0 <= k <= |s| && AllWhiteSpace(s[k..])
    ensures forall j :: k <= j < |s| ==> IsWhiteSpace(s[j])
  {
    forall j | k <= j < |s|
      ensures IsWhiteSpace(s[j])
    {
      assert s[k..][j - k] == s[j];
    }
  }

  lemma NothingKeptMeansAllWhiteSpace(s: string, i: int)
    requires 0 <= i <= |s|
    requires AllWhiteSpace(s[..i]) && AllWhiteSpace(s[i..])
    ensures AllWhiteSpace(s)
  {
    forall k | 0 <= k < |s|
      ensures IsWhiteSpace(s[k])
    {
      if k < i {
        assert s[..i][k] == s[k];
      } else {
        assert s[i..][k - i] == s[k];
      }
    }
  }

  /** Trimming leaves nothing exactly when the text is white space only. */
  lemma TrimEmptyIffAllWhiteSpace(s: string)
    ensures Trim(s) == [] <==> AllWhiteSpace(s)
  {
    var r := Trim(s);
    var i :| 0 <= i <= |s| - |r| && TrimmedAt(r, s, i);
    if r == [] {
      NothingKeptMeansAllWhiteSpace(s, i);
    }
  }

  /** Trimming twice is trimming once. */
  lemma TrimIdempotent(s: string)
    ensures Trim(Trim(s)) == Trim(s)
  {
    var r := Trim(s);
    assert TrimmedAt(r, r, 0);
    TrimmingIsUnique(r, Trim(r), r);
  }

  /** The trimmed text of `Some(s)` is null-or-white-space exactly when the raw
      text `s` is white space only. */
  lemma TrimmedIsNullOrWhiteSpace(s: string)
    ensures IsNullOrWhiteSpace(W.Some(Trim(s))) <==> AllWhiteSpace(s)
  {
    var r := Trim(s);
    TrimEmptyIffAllWhiteSpace(s);
    if r != [] {
      assert !IsWhiteSpace(r[0]);
    }
  }
}

=== FILE: echo_bot.dfy ===
/** The prompt demo bot: one inbound text per turn drives a small question
    state machine that asks whether to book, then for an employee id.

    A turn is a pure function from (last question, booking data, raw text) to
    (next question, booking data, messages sent). The raw text is the
    activity's `Text`, which may be null. Loading and saving the two state
    properties is the hosting framework's business and is not modelled. */
module EchoBot {
  import W = Wrappers
  import opened DotNetText
  import opened ConversationFlow
  import Seqs

  /** The demo's per-user booking record. Only `EmployeeId` is read or written
      by the bot; it starts out null. */
  datatype BookingData = BookingData(employeeId: W.Option<string>)

  const EmptyBookingData: BookingData := BookingData(W.None)

  datatype CardButton = CardButton(title: string, value: string)

  /** What the bot sends. Cards are kept as their title and buttons only. */
  datatype Message =
    | Text(body: string)
    | Card(title: string, buttons: seq<CardButton>)
    | Echo(employeeId: W.Option<string>)  // the stored employee id, sent back verbatim as a text

  /** The reply a button click produces; an exact match against `Yes` accepts. */
  const Yes: string := "ใช่"
  const No: string := "ไม่ใช่"

  const Greeting: Message := Text("สวัสดี ! ยินดีต้อนรับสู่ตัวช่วยในการจองห้องประชุม")
  const AcceptCard: Message :=
    Card("คุณต้องการที่จะทำการจองห้องหรือไม่ ?", [CardButton("ใช่", Yes), CardButton("ไม่", No)])
  const EmployeeIdPrompt: Message := Text("โปรดใส่รหัสพนักงานของคุณ")
  const EmployeeIdError: Message := Text("เกิดข้อผิดพลาดกับการกรอกรหัสพนักงาน กรุณากรอกอีกครั้ง")

  datatype Turn = Turn(state: QuestionState, data: BookingData, sent: seq<Message>)

  /** The only forward moves of the flag. */
  predicate Advances(from: QuestionState, to: QuestionState) {
    || (from == QuestionState.None && to == IsAcceptBooking)
    || (from == IsAcceptBooking && to == EmployeeId)
    || (from == EmployeeId && to == RoomNo)
  }

  /** One turn of the booking questionnaire. */
  function FillOutBookingData(state: QuestionState, data: BookingData, text: W.Option<string>): (t: Turn)
    ensures t.state == state || Advances(state, t.state)
    ensures t.data != data ==> state == EmployeeId && t.state == RoomNo
    ensures t.sent == [] <==> state == EmployeeId && t.state == RoomNo
    ensures |t.sent| <= 1 && Greeting !in t.sent
  {
    var input := if text.Some? then W.Some(Trim(text.value)) else W.None;
    match state
    case None =>
      Turn(IsAcceptBooking, data, [AcceptCard])
    case IsAcceptBooking =>
      // The raw, untrimmed text is compared here.
      if text == W.Some(Yes) then Turn(EmployeeId, data, [EmployeeIdPrompt])
      else Turn(state, data, [AcceptCard])
    case EmployeeId =>
      if !IsNullOrWhiteSpace(input) then Turn(RoomNo, data.(employeeId := input), [])
      else Turn(state, data, [EmployeeIdError])
    case _ =>
      Turn(state, data, [Echo(data.employeeId)])
  }

  /** From `None`, whatever arrives, the yes/no card is sent and the bot waits
      for the answer; the data is untouched. */
  lemma NoneSendsAcceptCard(data: BookingData, text: W.Option<string>)
    ensures FillOutBookingData(QuestionState.None, data, text) == Turn(IsAcceptBooking, data, [AcceptCard])
  {
  }

  /** At the yes/no question, the raw text equal to `Yes` and nothing else
      advances to the employee id question; anything else, the "no" button's
      value included, re-sends the card and changes nothing. */
  lemma AcceptOnlyOnExactYes(data: BookingData, text: W.Option<string>)
    ensures var t := FillOutBookingData(IsAcceptBooking, data, text);
      && (t.state == EmployeeId <==> text == W.Some(Yes))
      && (text == W.Some(Yes) ==> t == Turn(EmployeeId, data, [EmployeeIdPrompt]))
      && (text != W.Some(Yes) ==> t == Turn(IsAcceptBooking, data, [AcceptCard]))
  {
  }

  /** Padding around the accepted reply is not trimmed away, and the "no"
      button is just another non-match. */
  lemma AcceptIsNotTrimmed(data: BookingData)
    ensures FillOutBookingData(IsAcceptBooking, data, W.Some(" " + Yes)).state == IsAcceptBooking
    ensures FillOutBookingData(IsAcceptBooking, data, W.Some(No)).state == IsAcceptBooking
    ensures FillOutBookingData(IsAcceptBooking, data, W.None).state == IsAcceptBooking
  {
  }

  /** At the employee id question, a raw text with any non-white-space
      character is stored trimmed and the flag moves to `RoomNo` silently;
      null, empty or white-space-only text sends the error and changes
      nothing. */
  lemma EmployeeIdStoredIffNotBlank(data: BookingData, text: W.Option<string>)
    ensures var t := FillOutBookingData(EmployeeId, data, text);
      && (t.state == RoomNo <==> text.Some? && !AllWhiteSpace(text.value))
      && (t.state == RoomNo ==>
            && t.data == BookingData(W.Some(Trim(text.value)))
            && Trim(text.value) != [] && IsTrimmed(Trim(text.value))
            && t.sent == [])
      && (t.state != RoomNo ==> t == Turn(EmployeeId, data, [EmployeeIdError]))
  {
    if text.Some? {
      TrimmedIsNullOrWhiteSpace(text.value);
    }
  }

  /** `RoomNo`, `TimeFrom` and `TimeTo` are absorbing: nothing changes and the
      stored employee id is sent back. */
  lemma LaterStatesEchoEmployeeId(state: QuestionState, data: BookingData, text: W.Option<string>)
    requires state in {RoomNo, TimeFrom, TimeTo}
    ensures FillOutBookingData(state, data, text) == Turn(state, data, [Echo(data.employeeId)])
  {
  }

  /** Several turns in a row; the messages are concatenated in order. */
  function Run(state: QuestionState, data: BookingData, inputs: seq<W.Option<string>>): (t: Turn)
    ensures |t.sent| <= |inputs|
    decreases |inputs|
  {
    if inputs == [] then Turn(state, data, [])
    else
      var first := FillOutBookingData(state, data, inputs[0]);
      var rest := Run(first.state, first.data, inputs[1..]);
      rest.(sent := first.sent + rest.sent)
  }

  /** What holds of every state a conversation can reach from the start,
      with the flag and the data threaded together as they are for one user:
      the time questions are never asked, and at `RoomNo` a trimmed,
      non-empty employee id is stored. */
  ghost predicate Consistent(state: QuestionState, data: BookingData) {
    && state != TimeFrom && state != TimeTo
    && (state == RoomNo ==>
          data.employeeId.Some? && data.employeeId.value != [] && IsTrimmed(data.employeeId.value))
  }

  lemma StepKeepsConsistent(state: QuestionState, data: BookingData, text: W.Option<string>)
    requires Consistent(state, data)
    ensures var t := FillOutBookingData(state, data, text); Consistent(t.state, t.data)
  {
    if state == EmployeeId {
      EmployeeIdStoredIffNotBlank(data, text);
    }
  }

  lemma {:induction false} RunKeepsConsistent(state: QuestionState, data: BookingData, inputs: seq<W.Option<string>>)
    requires Consistent(state, data)
    ensures var t := Run(state, data, inputs); Consistent(t.state, t.data)
    decreases |inputs|
  {
    if inputs != [] {
      var first := FillOutBookingData(state, data, inputs[0]);
      StepKeepsConsistent(state, data, inputs[0]);
      RunKeepsConsistent(first.state, first.data, inputs[1..]);
    }
  }

  /** From the initial flag, whatever the stored data and whatever is typed
      along one user's turns, only `None`, `IsAcceptBooking`, `EmployeeId`
      and `RoomNo` are ever reached; `TimeFrom` and `TimeTo` are never
      entered. */
  lemma ReachableStates(data: BookingData, inputs: seq<W.Option<string>>)
    ensures Run(Initial, data, inputs).state in {QuestionState.None, IsAcceptBooking, EmployeeId, RoomNo}
  {
    RunKeepsConsistent(Initial, data, inputs);
  }

  /** Each of those four states is actually reached; the id is stored trimmed. */
  lemma AllFourAreReached()
    ensures Run(Initial, EmptyBookingData, []).state == QuestionState.None
    ensures Run(Initial, EmptyBookingData, [W.None]).state == IsAcceptBooking
    ensures Run(Initial, EmptyBookingData, [W.None, W.Some(Yes)]).state == EmployeeId
    ensures Run(Initial, EmptyBookingData, [W.None, W.Some(Yes), W.Some(" E1 ")])
         == Turn(RoomNo, BookingData(W.Some("E1")), [AcceptCard, EmployeeIdPrompt])
  {
    ReachesEmployeeId();
    StoresPaddedId();
  }

  lemma ReachesEmployeeId()
    ensures Run(Initial, EmptyBookingData, [W.None, W.Some(Yes)]).state == EmployeeId
  {
    var yes: seq<W.Option<string>> := [W.Some(Yes)];
    assert [W.None, W.Some(Yes)][1..] == yes;
    assert Run(IsAcceptBooking, EmptyBookingData, yes).state == EmployeeId;
  }

  lemma StoresPaddedId()
    ensures Run(Initial, EmptyBookingData, [W.None, W.Some(Yes), W.Some(" E1 ")])
         == Turn(RoomNo, BookingData(W.Some("E1")), [AcceptCard, EmployeeIdPrompt])
  {
    assert !IsWhiteSpace(" E1 "[1]);
    YesThenIdReachesRoomNo(EmptyBookingData, W.None, " E1 ");
    TrimOfPaddedId();
  }

  /** From the start, any opening message, the exact yes and then an id that
      is not all white space store the trimmed id and reach the room
      question, with the card and the id question sent on the way. */
  lemma YesThenIdReachesRoomNo(data: BookingData, opening: W.Option<string>, id: string)
    requires !AllWhiteSpace(id)
    ensures Run(Initial, data, [opening, W.Some(Yes), W.Some(id)])
         == Turn(RoomNo, BookingData(W.Some(Trim(id))), [AcceptCard, EmployeeIdPrompt])
  {
    var stored := Turn(RoomNo, BookingData(W.Some(Trim(id))), []);
    IdThenRoomNo(data, id);
    ThreeTurns(data, opening, id, stored);
    Seqs.AppendEmpty([AcceptCard, EmployeeIdPrompt]);
  }

  /** Opening, yes and an id: the card, then the id question, then whatever
      the id turn gives. */
  lemma ThreeTurns(data: BookingData, opening: W.Option<string>, id: string, after: Turn)
    requires Run(EmployeeId, data, [W.Some(id)]) == after
    ensures Run(Initial, data, [opening, W.Some(Yes), W.Some(id)])
         == after.(sent := [AcceptCard, EmployeeIdPrompt] + after.sent)
  {
    var last: seq<W.Option<string>> := [W.Some(id)];
    YesThen(data, last);
    OpeningThen(data, opening, [W.Some(Yes)] + last);
    Seqs.Triple(opening, W.Some(Yes), W.Some(id));
    Seqs.ConsPair(AcceptCard, EmployeeIdPrompt, after.sent);
  }

  /** Any first message from the start sends the card and waits for yes/no. */
  lemma OpeningThen(data: BookingData, opening: W.Option<string>, rest: seq<W.Option<string>>)
    ensures var r := Run(IsAcceptBooking, data, rest);
      Run(Initial, data, [opening] + rest) == r.(sent := [AcceptCard] + r.sent)
  {
    RunFirstTurn(Initial, data, opening, rest);
    NoneSendsAcceptCard(data, opening);
  }

  /** The exact yes asks for the employee id and waits for it. */
  lemma YesThen(data: BookingData, rest: seq<W.Option<string>>)
    ensures var r := Run(EmployeeId, data, rest);
      Run(IsAcceptBooking, data, [W.Some(Yes)] + rest) == r.(sent := [EmployeeIdPrompt] + r.sent)
  {
    RunFirstTurn(IsAcceptBooking, data, W.Some(Yes), rest);
    AcceptOnlyOnExactYes(data, W.Some(Yes));
  }

  lemma IdThenRoomNo(data: BookingData, id: string)
    requires !AllWhiteSpace(id)
    ensures Run(EmployeeId, data, [W.Some(id)]) == Turn(RoomNo, BookingData(W.Some(Trim(id))), [])
  {
    var none: seq<W.Option<string>> := [];
    EmployeeIdStoredIffNotBlank(data, W.Some(id));
    RunFirstTurn(EmployeeId, data, W.Some(id), none);
    assert [W.Some(id)] + none == [W.Some(id)];
  }

  /** A conversation is its first turn followed by the rest. */
  lemma RunFirstTurn(state: QuestionState, data: BookingData, input: W.Option<string>, inputs: seq<W.Option<string>>)
    ensures var first := FillOutBookingData(state, data, input);
      var rest := Run(first.state, first.data, inputs);
      Run(state, data, [input] + inputs) == rest.(sent := first.sent + rest.sent)
  {
    assert ([input] + inputs)[1..] == inputs;
  }

  lemma TrimOfPaddedId()
    ensures Trim(" E1 ") == "E1"
  {
    PaddedIdTrimStart();
    PaddedIdTrimEnd();
  }

  lemma PaddedIdTrimStart()
    ensures TrimStart(" E1 ") == "E1 "
  {
    assert IsWhiteSpace(' ') && !IsWhiteSpace('E');
    assert " E1 "[1..] == "E1 ";
  }

  lemma PaddedIdTrimEnd()
    ensures TrimEnd("E1 ") == "E1"
  {
    assert IsWhiteSpace(' ') && !IsWhiteSpace('1');
    assert "E1 "[..2] == "E1";
  }

  /** Once at `RoomNo` the conversation stays there for good, echoing the
      stored id once per turn. */
  lemma {:induction false} RoomNoIsFinal(data: BookingData, inputs: seq<W.Option<string>>)
    ensures Run(RoomNo, data, inputs) == Turn(RoomNo, data, seq(|inputs|, _ => Echo(data.employeeId)))
    decreases |inputs|
  {
    if inputs != [] {
      RoomNoIsFinal(data, inputs[1..]);
    }
  }

  function NonBotCount(members: seq<string>, botId: string): (n: nat)
    ensures n <= |members|
  {
    if members == [] then 0
    else (if members[0] != botId then 1 else 0) + NonBotCount(members[1..], botId)
  }

  /** The members-added handler: for each new member other than the bot, a
      greeting and then one turn of the questionnaire; the bot itself is
      skipped. `text` is the update activity's `Text`. */
  function OnMembersAdded(state: QuestionState, data: BookingData, members: seq<string>, botId: string,
                          text: W.Option<string>): (t: Turn)
    ensures multiset(t.sent)[Greeting] == NonBotCount(members, botId)
    ensures NonBotCount(members, botId) == 0 ==> t == Turn(state, data, [])
    decreases |members|
  {
    if members == [] then Turn(state, data, [])
    else
      var first :=
        if members[0] != botId then
          var step := FillOutBookingData(state, data, text);
          step.(sent := [Greeting] + step.sent)
        else Turn(state, data, []);
      var rest := OnMembersAdded(first.state, first.data, members[1..], botId, text);
      rest.(sent := first.sent + rest.sent)
  }

  /** A single user joining gets the greeting first, then exactly one turn's
      messages; a conversation that has just started therefore shows the
      greeting and the yes/no card. */
  lemma OneMemberJoins(state: QuestionState, data: BookingData, user: string, botId: string,
                       text: W.Option<string>)
    requires user != botId
    ensures var step := FillOutBookingData(state, data, text);
      OnMembersAdded(state, data, [user], botId, text) == step.(sent := [Greeting] + step.sent)
  {
    var step := FillOutBookingData(state, data, text);
    var none: seq<string> := [];
    assert [user][1..] == none;
    assert OnMembersAdded(step.state, step.data, none, botId, text) == Turn(step.state, step.data, []);
    assert [Greeting] + step.sent + [] == [Greeting] + step.sent;
  }

  /** In a conversation that has just started, a joining user sees the
      greeting and then the yes/no card. */
  lemma NewUserIsGreetedThenAsked(data: BookingData, user: string, botId: string, text: W.Option<string>)
    requires user != botId
    ensures OnMembersAdded(Initial, data, [user], botId, text) == Turn(IsAcceptBooking, data, [Greeting, AcceptCard])
  {
    OneMemberJoins(Initial, data, user, botId, text);
  }

  /** The reference for the members-added handler: `n` users, each greeted
      and then given one turn of the questionnaire on the same text. */
  function GreetEach(state: QuestionState, data: BookingData, n: nat, text: W.Option<string>): (t: Turn)
    ensures |t.sent| <= 2 * n
    decreases n
  {
    if n == 0 then Turn(state, data, [])
    else
      var step := FillOutBookingData(state, data, text);
      var rest := GreetEach(step.state, step.data, n - 1, text);
      rest.(sent := [Greeting] + step.sent + rest.sent)
  }

  /** The handler is `GreetEach` over the members other than the bot, in the
      order they are listed: a bot entry, wherever it stands, contributes
      nothing. */
  lemma {:induction false} MembersAddedGreetsEachUser(state: QuestionState, data: BookingData, members: seq<string>,
                                                      botId: string, text: W.Option<string>)
    ensures OnMembersAdded(state, data, members, botId, text) == GreetEach(state, data, NonBotCount(members, botId), text)
    decreases |members|, 1
  {
    if members != [] {
      if members[0] != botId {
        UserEntryStep(state, data, members, botId, text);
      } else {
        MembersAddedGreetsEachUser(state, data, members[1..], botId, text);
        BotEntryIsSkipped(state, data, members, botId, text);
      }
    }
  }

  lemma {:induction false} UserEntryStep(state: QuestionState, data: BookingData, members: seq<string>,
                                         botId: string, text: W.Option<string>)
    requires members != [] && members[0] != botId
    ensures OnMembersAdded(state, data, members, botId, text) == GreetEach(state, data, NonBotCount(members, botId), text)
    decreases |members|, 0
  {
    var step := FillOutBookingData(state, data, text);
    var m := NonBotCount(members[1..], botId);
    MembersAddedGreetsEachUser(step.state, step.data, members[1..], botId, text);
    UserEntryIsGreeted(state, data, members, botId, text);
    GreetEachUnfolds(state, data, m, text);
  }

  lemma GreetEachUnfolds(state: QuestionState, data: BookingData, m: nat, text: W.Option<string>)
    ensures var step := FillOutBookingData(state, data, text);
      var g := GreetEach(step.state, step.data, m, text);
      GreetEach(state, data, m + 1, text) == g.(sent := [Greeting] + step.sent + g.sent)
  {
  }

  lemma UserEntryIsGreeted(state: QuestionState, data: BookingData, members: seq<string>, botId: string,
                           text: W.Option<string>)
    ensures members != [] && members[0] != botId ==>
      var step := FillOutBookingData(state, data, text);
      var rest := OnMembersAdded(step.state, step.data, members[1..], botId, text);
      && NonBotCount(members, botId) == NonBotCount(members[1..], botId) + 1
      && OnMembersAdded(state, data, members, botId, text) == rest.(sent := [Greeting] + step.sent + rest.sent)
  {
  }

  lemma BotEntryIsSkipped(state: QuestionState, data: BookingData, members: seq<string>, botId: string,
                          text: W.Option<string>)
    ensures members != [] && members[0] == botId ==>
      && NonBotCount(members, botId) == NonBotCount(members[1..], botId)
      && OnMembersAdded(state, data, members, botId, text) == OnMembersAdded(state, data, members[1..], botId, text)
  {
    if members != [] && members[0] == botId {
      var rest := OnMembersAdded(state, data, members[1..], botId, text);
      assert [] + rest.sent == rest.sent;
    }
  }

  /** `n` turns on one text are the first such turn followed by `n - 1`
      more. */
  lemma TurnsOnOneText(state: QuestionState, data: BookingData, n: nat, text: W.Option<string>)
    requires n > 0
    ensures var first := FillOutBookingData(state, data, text);
      var rest := Run(first.state, first.data, seq(n - 1, _ => text));
      Run(state, data, seq(n, _ => text)) == rest.(sent := first.sent + rest.sent)
  {
    assert [text] + seq(n - 1, _ => text) == seq(n, _ => text);
    RunFirstTurn(state, data, text, seq(n - 1, _ => text));
  }

  /** Dropping the greetings from what greeting `n` users sends leaves
      exactly the messages of `n` message turns on the same text. */
  lemma {:induction false} GreetEachSendsTurnsMessages(state: QuestionState, data: BookingData, n: nat,
                                                       text: W.Option<string>)
    ensures Seqs.WithoutAll(GreetEach(state, data, n, text).sent, Greeting) == Run(state, data, seq(n, _ => text)).sent
    decreases n
  {
    if n > 0 {
      var step := FillOutBookingData(state, data, text);
      GreetEachSendsTurnsMessages(step.state, step.data, n - 1, text);
      TurnsOnOneText(state, data, n, text);
      GreetEachUnfolds(state, data, n - 1, text);
      Seqs.LeadingDropped(Greeting, step.sent, GreetEach(step.state, step.data, n - 1, text).sent);
    } else {
      assert seq(n, _ => text) == [];
    }
  }

  lemma {:induction false} GreetEachEndsWhereTurnsEnd(state: QuestionState, data: BookingData, n: nat,
                                                      text: W.Option<string>)
    ensures var g := GreetEach(state, data, n, text);
      var r := Run(state, data, seq(n, _ => text));
      g.state == r.state && g.data == r.data && |g.sent| == n + |r.sent|
    decreases n
  {
    if n > 0 {
      var step := FillOutBookingData(state, data, text);
      GreetEachEndsWhereTurnsEnd(step.state, step.data, n - 1, text);
      TurnsOnOneText(state, data, n, text);
      GreetEachUnfolds(state, data, n - 1, text);
    }
  }

  /** Greeting `n` users leaves flag and data exactly where `n` message turns
      on the same text leave them, and its messages are those turns' messages
      with one greeting in front of each turn's. */
  lemma GreetEachRunsOneTurnPerUser(state: QuestionState, data: BookingData, n: nat, text: W.Option<string>)
    ensures var g := GreetEach(state, data, n, text);
      var r := Run(state, data, seq(n, _ => text));
      && g.state == r.state && g.data == r.data && |g.sent| == n + |r.sent|
      && Seqs.WithoutAll(g.sent, Greeting) == r.sent
  {
    GreetEachEndsWhereTurnsEnd(state, data, n, text);
    GreetEachSendsTurnsMessages(state, data, n, text);
  }

  /** The handler leaves flag and data where one message turn per joining
      user, on the update's text, leaves them; beside those turns' messages
      it sends only the greetings. */
  lemma MembersAddedIsOneTurnPerUser(state: QuestionState, data: BookingData, members: seq<string>, botId: string,
                                     text: W.Option<string>)
    ensures var t := OnMembersAdded(state, data, members, botId, text);
      var n := NonBotCount(members, botId);
      var r := Run(state, data, seq(n, _ => text));
      && t.state == r.state && t.data == r.data && |t.sent| == n + |r.sent|
      && Seqs.WithoutAll(t.sent, Greeting) == r.sent
  {
    MembersAddedGreetsEachUser(state, data, members, botId, text);
    GreetEachRunsOneTurnPerUser(state, data, NonBotCount(members, botId), text);
  }

  /** The usual update lists the bot before the user: the bot's entry is
      skipped and the user is greeted and asked as if alone. */
  lemma BotThenUserIsGreetedThenAsked(data: BookingData, user: string, botId: string, text: W.Option<string>)
    requires user != botId
    ensures OnMembersAdded(Initial, data, [botId, user], botId, text)
         == Turn(IsAcceptBooking, data, [Greeting, AcceptCard])
  {
    assert [botId, user][1..] == [user];
    NewUserIsGreetedThenAsked(data, user, botId, text);
    var t := OnMembersAdded(Initial, data, [user], botId, text);
    assert [] + t.sent == t.sent;
  }

  /** Along a conversation that starts at the initial flag, every echo carries
      a stored id that is not null and not all white space: the echo of a
      null id, which the host would refuse to send, does not occur. */
  lemma {:induction false} EchoesCarryAnId(state: QuestionState, data: BookingData, inputs: seq<W.Option<string>>)
    requires Consistent(state, data)
    ensures forall k :: 0 <= k < |Run(state, data, inputs).sent| && Run(state, data, inputs).sent[k].Echo? ==>
      Run(state, data, inputs).sent[k].employeeId.Some? && !AllWhiteSpace(Run(state, data, inputs).sent[k].employeeId.value)
    decreases |inputs|
  {
    if inputs != [] {
      var first := FillOutBookingData(state, data, inputs[0]);
      StepKeepsConsistent(state, data, inputs[0]);
      EchoesCarryAnId(first.state, first.data, inputs[1..]);
      if state == RoomNo {
        var id := data.employeeId.value;
        assert !IsWhiteSpace(id[0]);
      }
    }
  }
}

=== FILE: qna_dialog.dfy ===
/** The FAQ bot's answer selection: one user turn is sent to the QnA
    knowledge base, and the first answer it returns decides what the bot
    says and whether the next turn is a follow-up of this one. */
module QnADialog {
  import W = Wrappers

  /** A follow-up question offered with an answer. Cards are not rendered
      here, so its fields are carried, not interpreted. */
  datatype QnAPrompt = QnAPrompt(displayOrder: int, qnaId: int, displayText: string)

  /** The multi-turn context of an answer; its prompt list may be null. */
  datatype QnAContext = QnAContext(prompts: W.Option<seq<QnAPrompt>>)

  /** One answer of the knowledge base; its context may be null. */
  datatype QnAResult = QnAResult(answer: string, id: int, context: W.Option<QnAContext>)

  /** What the dialog remembers between turns: the answer that offered
      follow-ups and the query that produced it. */
  datatype QnABotState = QnABotState(previousQnaId: int, previousUserQuery: W.Option<string>)

  /** A plain text message, or the hero card showing an answer with its
      follow-up prompts as buttons. */
  datatype Activity = Text(body: string) | HeroCard(title: string, buttons: seq<QnAPrompt>)

  /** The triple a turn returns: the state to keep (null clears it), the
      activities to send, and the dialog result, which is always null. */
  datatype Outcome = Outcome(newState: W.Option<QnABotState>, output: seq<Activity>, result: W.Option<()>)

  /** Indexing the first answer of an empty list throws. */
  datatype Error = IndexOutOfRange

  /** The answer the knowledge base gives when nothing matched. */
  const NoGoodMatch := "No good match found in KB."
  const Sorry := "ขออภัยค่ะ ฉันไม่เข้าใจ"
  const BackToFaq := "พิมพ์ \"FAQ\" เพื่อกลับสู่บริการตอบคำถาม"
  const AskAgain := "พิมพ์ \"ถามอีกครั้ง\" หรือ \"ถามอีกครั้งได้ไหม\" เพื่อถามเรื่องอื่น ๆ"

  /** `Context?.Prompts`: null when either the context or its list is. */
  function Prompts(r: QnAResult): W.Option<seq<QnAPrompt>> {
    if r.context.None? then W.None else r.context.value.prompts
  }

  /** The answer offers at least one follow-up. */
  predicate HasPrompts(r: QnAResult) {
    Prompts(r).Some? && |Prompts(r).value| >= 1
  }

  /** The case split on the first answer: the fallback texts, the answer with
      a hint, or a card that also starts a follow-up. */
  function Respond(query: W.Option<string>, first: QnAResult): (o: Outcome)
    ensures o.result == W.None
    ensures o.output != []
  {
    if !HasPrompts(first) then
      if first.answer == NoGoodMatch then Outcome(W.None, [Text(Sorry), Text(BackToFaq)], W.None)
      else Outcome(W.None, [Text(first.answer), Text(AskAgain)], W.None)
    else
      Outcome(W.Some(QnABotState(first.id, query)), [HeroCard(first.answer, Prompts(first).value)], W.None)
  }

  /** One turn. The knowledge-base query is a parameter: it is given the
      user's text and the state kept from the previous turn, and returns the
      ranked answers. */
  function Process(oldState: W.Option<QnABotState>, text: W.Option<string>,
                   queryService: (W.Option<string>, W.Option<QnABotState>) -> seq<QnAResult>)
    : (r: W.Result<Outcome, Error>)
    ensures r.Failure? <==> queryService(text, oldState) == []
    ensures r.Success? ==> r.value.result == W.None && r.value.output != []
  {
    var results := queryService(text, oldState);
    if results == [] then W.Failure(IndexOutOfRange) else W.Success(Respond(text, results[0]))
  }

  // ---------------------------------------------------------------------------
  // Properties

  /** Only the first answer is consulted: two answer lists with the same
      first element give the same turn, whatever follows it. */
  lemma OnlyFirstResultMatters(oldState: W.Option<QnABotState>, text: W.Option<string>,
                               s1: (W.Option<string>, W.Option<QnABotState>) -> seq<QnAResult>,
                               s2: (W.Option<string>, W.Option<QnABotState>) -> seq<QnAResult>)
    requires s1(text, oldState) != [] && s2(text, oldState) != []
    requires s1(text, oldState)[0] == s2(text, oldState)[0]
    ensures Process(oldState, text, s1) == Process(oldState, text, s2)
  {
  }

  /** The previous state reaches the turn only through the query: with the
      same answers, any kept state gives the same outcome. */
  lemma OldStateOnlyReachesTheQuery(old1: W.Option<QnABotState>, old2: W.Option<QnABotState>, text: W.Option<string>,
                                    queryService: (W.Option<string>, W.Option<QnABotState>) -> seq<QnAResult>)
    requires queryService(text, old1) == queryService(text, old2)
    ensures Process(old1, text, queryService) == Process(old2, text, queryService)
  {
  }

  /** The no-match answer without follow-ups sends exactly the apology and
      the way back to the FAQ, and clears the state. */
  lemma NoMatchSendsTheFallback(query: W.Option<string>, first: QnAResult)
    requires !HasPrompts(first) && first.answer == NoGoodMatch
    ensures Respond(query, first) == Outcome(W.None, [Text(Sorry), Text(BackToFaq)], W.None)
  {
  }

  /** Any other answer without follow-ups is sent as it is, then the hint
      on asking again, and the state is cleared. */
  lemma PlainAnswerThenHint(query: W.Option<string>, first: QnAResult)
    requires !HasPrompts(first) && first.answer != NoGoodMatch
    ensures Respond(query, first) == Outcome(W.None, [Text(first.answer), Text(AskAgain)], W.None)
  {
  }

  /** An answer with follow-ups is sent as one card carrying its prompts,
      and the state remembers its id and the query exactly as typed. */
  lemma PromptsStartAFollowUp(query: W.Option<string>, first: QnAResult)
    requires HasPrompts(first)
    ensures Respond(query, first)
         == Outcome(W.Some(QnABotState(first.id, query)), [HeroCard(first.answer, Prompts(first).value)], W.None)
  {
  }

  /** A state is kept exactly when the first answer has follow-ups; a null
      context, a null list and an empty list all clear it. */
  lemma StateKeptIffPrompts(query: W.Option<string>, first: QnAResult)
    ensures Respond(query, first).newState.Some? <==> HasPrompts(first)
    ensures first.context.None? ==> Respond(query, first).newState == W.None
    ensures first.context == W.Some(QnAContext(W.None)) ==> Respond(query, first).newState == W.None
    ensures first.context == W.Some(QnAContext(W.Some([]))) ==> Respond(query, first).newState == W.None
  {
  }

  /** The three outputs are told apart by their length and first element:
      one card, or two texts of which the first is the answer unless the
      knowledge base found nothing. */
  lemma OutputShapes(query: W.Option<string>, first: QnAResult)
    ensures var o := Respond(query, first);
      && (|o.output| == 1 <==> HasPrompts(first))
      && (|o.output| == 1 ==> o.output[0].HeroCard? && o.output[0].title == first.answer)
      && (|o.output| == 2 ==> o.output[0] == Text(if first.answer == NoGoodMatch then Sorry else first.answer))
      && (|o.output| == 1 || |o.output| == 2)
  {
  }
}

=== FILE: seqs.dfy ===
/** Generic facts about sequences. */
module Seqs {
  /** The elements of `s` other than `x`, in order. */
  function WithoutAll<T(==)>(s: seq<T>, x: T): (r: seq<T>)
    ensures x !in r
  {
    if s == [] then [] else (if s[0] == x then [] else [s[0]]) + WithoutAll(s[1..], x)
  }

  lemma {:induction false} WithoutAllAppend<T>(a: seq<T>, b: seq<T>, x: T)
    ensures WithoutAll(a + b, x) == WithoutAll(a, x) + WithoutAll(b, x)
  {
    if a == [] {
      assert a + b == b;
    } else {
      assert (a + b)[0] == a[0];
      assert (a + b)[1..] == a[1..] + b;
      WithoutAllAppend(a[1..], b, x);
      var h := if a[0] == x then [] else [a[0]];
      assert WithoutAll(a + b, x) == h + (WithoutAll(a[1..], x) + WithoutAll(b, x));
      assert WithoutAll(a, x) == h + WithoutAll(a[1..], x);
    }
  }

  lemma {:induction false} WithoutAllKeepsTheRest<T>(a: seq<T>, x: T)
    requires x !in a
    ensures WithoutAll(a, x) == a
  {
    if a != [] {
      WithoutAllKeepsTheRest(a[1..], x);
    }
  }

  /** One element `x`, a stretch without `x` and then more: dropping `x`
      leaves the stretch and what remains of the rest. */
  lemma LeadingDropped<T>(x: T, middle: seq<T>, rest: seq<T>)
    requires x !in middle
    ensures WithoutAll([x] + middle + rest, x) == middle + WithoutAll(rest, x)
  {
    var s := [x] + middle + rest;
    assert s[0] == x && s[1..] == middle + rest;
    WithoutAllAppend(middle, rest, x);
    WithoutAllKeepsTheRest(middle, x);
  }

  lemma Triple<T>(a: T, b: T, c: T)
    ensures [a] + ([b] + [c]) == [a, b, c]
  {
  }

  lemma ConsPair<T>(a: T, b: T, rest: seq<T>)
    ensures [a] + ([b] + rest) == [a, b] + rest
  {
  }

  lemma AppendEmpty<T>(s: seq<T>)
    ensures s + [] == s
  {
  }
}

=== FILE: wrappers.dfy ===
/** Failure-compatible wrappers used across the model: `Option` stands for a
    C# reference that may be null, `Result` for a call that may throw. */
module Wrappers {

  datatype Option<+T> = None | Some(value: T)

  datatype Result<+R, +E> = Success(value: R) | Failure(error: E)
}
